=== FILE: README.md ===
# MAX-SAT metaheuristics in Dafny

A Dafny model of the two MAX-SAT engines of `max-k-sat`: the genetic algorithm in `ea.py` and the weighted particle swarm with greedy local search in `pso.py`. Each engine looks for a 0/1 valuation that satisfies as many clauses of a CNF formula as it can. The model covers the integer logic of both engines:

- the clause evaluator, which both files define in the same way;
- the unweighted count and the weighted fitness;
- adaptive clause weighting;
- the global-best and personal-best bookkeeping;
- the bit-flip local search;
- the selection, crossover, mutation and generation-filling operators;
- the stop conditions and the result logic of both run loops.

Every random draw comes in as a parameter:

- initial positions and solutions are sequences of valuations;
- uniform draws are `real`s;
- parent indices and mutation loci are integers.

No claim is made about their distribution.

Files and modules:

- `clauses.dfy` (`Clauses`): literals, clauses, valuations, `is_clause_satisfied` and the satisfied-clause count.
- `weighted.dfy` (`WeightedFitness`): weighted clauses, weighted fitness, `num_satisfied_clauses`, `update_clauses_weight`.
- `local_search.dfy` (`PsoLocalSearch`): `local_search`, split into one sweep and the outer loop.
- `pso.dfy` (`Pso`): particles, global best, `calc_fitness_and_global_best`, the two best updates, one iteration, and `run_WPSOSAT`.
- `genetic_ops.dfy` (`GeneticOps`): chromosomes, `selection`, `crossover` and `mutation`.
- `ea.dfy` (`Genetic`): `fitness` with `goal_function`, `stop_condition`, `create_generation` and `run`.

Modelling choices:

- A literal `l` must satisfy `1 <= |l| <= num_literals`. Python would read `valuation[-1]` for literal `0` without complaint, so the model makes this a precondition.
- Valuation entries are plain integers. The 0/1 domain is a separate predicate, `IsBits`, and every operator is shown to preserve it.
- Clause weights start at 1 and grow by `1 - satisfied`. Every fitness is therefore an integer.
- Python lists are shared by reference. The model uses immutable sequences, so every list is a value. Where sharing changes the result of crossover, the code as written is modelled separately (see Findings). The other effects of sharing are not modelled; each is named under Left out.
- Velocities never influence a position: the velocity-driven position update is commented out at pso.py:252. Given its initial positions, the PSO run is therefore deterministic, and `Pso.Run` models it as a whole.

Where the code and its docstrings or comments disagree, the model follows the code:

- The `selection` docstring (ea.py:79) promises the ten best chromosomes. The code sorts by ascending fitness and takes the first ten, so it keeps the ten of lowest fitness. It uses the literal 10 and never reads `selection_size`.
- `PSO.stop_condition` (pso.py:202-206) stops only once `iteration > max_iteration`, but `run_WPSOSAT` never calls it. Its own loop (pso.py:238) stops once `iteration >= max_iteration`, so at most `max_iteration` rounds run. With no clauses no round runs at all.

Two further facts about the code shape the model:

- `update_personal_best` (pso.py:170-174) re-evaluates the personal best's fitness every time it compares; no personal-best fitness is stored anywhere.
- `run` (ea.py:166) tests the recorded optimum for truthiness. With zero variables the recorded optimum is `[]`, which is falsy, so `run` falls through to the population maximum.

## Model

| member | source | states |
|---|---|---|
| Clauses.IsClauseSatisfied | pso.py:128-139 | a clause is satisfied iff some literal reads 1, where a negative literal `l` reads `1 - v[-l-1]` and a positive one reads `v[l-1]`; every literal must name one of the variables |
| Clauses.SatisfactionIgnoresLiteralOrder | pso.py:128-139 | two clauses with the same set of literals are satisfied together or not at all, whatever their order |
| Clauses.SatisfactionIsPermutationInvariant | ea.py:26-37 | a permutation of a clause is satisfied exactly when the clause is |
| Clauses.CountSatisfied | ea.py:50-60 | the satisfied-clause count lies in `[0, len(clauses)]` and equals `len(clauses)` iff every clause is satisfied |
| Clauses.UnsatisfiableCoreScoresThree | ea.py:50-60 | every 0/1 valuation of `[[1,2],[-1,2],[1,-2],[-1,-2]]` satisfies exactly 3 clauses, never 4 |
| WeightedFitness.UnitWeights | pso.py:86 | clauses enter the swarm with weight 1 and their literal lists unchanged |
| WeightedFitness.Fitness | pso.py:142-147 | the weighted fitness never exceeds the sum of the positive weights, whatever the weights are |
| WeightedFitness.FitnessBounds | pso.py:142-147 | with every weight at least 1, the weighted fitness lies in `[0, total weight]` and reaches the total iff every clause is satisfied |
| WeightedFitness.UnitWeightFitnessIsCount | pso.py:142-147 | under unit weights the weighted fitness equals the plain satisfied-clause count |
| WeightedFitness.NumSatisfiedClauses | pso.py:192-199 | the count ignores weights, lies in `[0, len(clauses)]` and equals `len(clauses)` iff every clause is satisfied |
| WeightedFitness.UpdateClausesWeight | pso.py:184-189 | clause by clause, each weight becomes `weight + 1 - satisfied(global best)`: a clause's weight rises by exactly 1 iff the global best leaves it unsatisfied and is otherwise unchanged; literal lists, their order and their count are unchanged; weights of at least 1 stay at least 1 |
| WeightedFitness.ReweighedFitness | pso.py:184-189 | after reweighing, any valuation's fitness grows by the number of clauses it satisfies among those the global best leaves unsatisfied |
| WeightedFitness.GlobalBestMissesItsUnsatisfied | pso.py:188-189 | the global best satisfies none of the clauses that reweighing raises |
| WeightedFitness.ReweighingKeepsGlobalBestFitness | pso.py:184-189 | reweighing never lowers a fitness and leaves the global best's own fitness unchanged |
| WeightedFitness.ReweighedTotal | pso.py:184-189 | total weight grows by exactly the number of clauses the global best leaves unsatisfied |
| PsoLocalSearch.Flip | pso.py:218 | a flip changes exactly variable `i`, to `1 - v[i]` |
| PsoLocalSearch.FlipUndoes | pso.py:226-228 | flipping back after a rejected flip restores the position exactly |
| PsoLocalSearch.Accept | pso.py:214-228 | one step of a sweep: the flip of variable `i` is kept exactly when its gain is at least 0, so the result is the position or its flip and is never less fit |
| PsoLocalSearch.TryFlip | pso.py:214-228 | flipping, measuring the gain and undoing a negative gain yields `Accept`, and the improvement it adds is the non-negative fitness gain |
| PsoLocalSearch.SweepFrom | pso.py:213-228 | the variables from `i` on are tried in order, each by `Accept` on the position the previous step left; the result is never less fit and keeps length and the 0/1 domain |
| PsoLocalSearch.Sweep | pso.py:213-228 | the sweep is `SweepFrom` from variable 0, so every flip is kept iff its gain is at least 0, in variable order; after it the fitness equals the fitness before it plus `improvement`, with `improvement >= 0`; the position comes back unchanged iff every single flip of it strictly lowers the fitness; length and the 0/1 domain are kept |
| PsoLocalSearch.SearchFrom | pso.py:211-228 | repeated sweeps, each from the position the last one left, while the last sweep gained and fewer than `max_flip` flips were made; every sweep adds `num_literals` flips; the result keeps the length |
| PsoLocalSearch.LocalSearch | pso.py:207-228 | the search equals `SearchFrom` started with improvement 1 and no flips, so it sweeps with the per-flip rule of `Accept`; it terminates (measure: positive weight minus fitness), never lowers the fitness, and keeps length and 0/1 domain; it stops with zero last-sweep improvement or with `flips >= max_flip`; the budget is checked only between sweeps, so flips overshoot `max_flip` by fewer than `num_literals`; with `max_flip <= 0` nothing moves; with a positive budget the position comes back unchanged iff every single flip of it strictly lowers the fitness |
| Pso.Init | pso.py:113-118 | initial swarm: unit weights, personal best equal to the initial position, global best taken from the first particle with its actual fitness, which is the satisfied-clause count |
| Pso.CalcFitnessAndGlobalBest | pso.py:150-159 | every particle's fitness is re-evaluated; the global-best fitness never decreases and bounds every particle's fitness; the global best is replaced only on strict improvement, by the first particle reaching the new maximum |
| Pso.UpdatePersonalBest | pso.py:170-174 | the personal best becomes the current position exactly when the recorded fitness strictly exceeds the re-evaluated fitness of the old personal best; if the recorded fitness does not exceed the position's, the new personal best is at least as fit as both the old one and the recorded fitness |
| Pso.UpdatePersonalBestAsWritten | pso.py:170-174 | the update as written also overwrites the recorded fitness with the old personal best's fitness when it fires |
| Pso.AsWrittenPersonalBestUnderstatesFitness | pso.py:173 | whenever the as-written update fires, the recorded fitness falls strictly below the fitness of the particle's own position; the corrected update keeps it |
| Pso.AsWrittenPersonalBestExample | pso.py:170-174 | for clause `[1]`, position `[1]`, personal best `[0]` and recorded fitness 1, the as-written update records 0 and the corrected update records 1 |
| Pso.AliasedPersonalBestNeverReplaced | pso.py:170-174 | when the personal best is the position itself, as the shared lists of pso.py make it (pso.py:19, 174), the update after local search never fires |
| Pso.UpdateGlobalBest | pso.py:177-181 | the global-best fitness becomes the maximum of itself and the personal best's fitness, is replaced only on strict improvement, and stays the actual fitness of the stored position |
| Pso.Turn | pso.py:246-259 | one particle's turn: its new position is exactly the result of `PsoLocalSearch.SearchFrom` from its old position with `max_flip`, which never lowers its fitness; afterwards the particle records the fitness of its new position, its personal best is at least that fit, and the global best is at least as fit as the personal best and never less fit than before; the global best is either unchanged or the particle's new personal best |
| Pso.TurnSatisfiesUnitClause | pso.py:211-228 | on the clause `[1]` with one variable and a flip budget of 1, local search moves `[0]` to `[1]`, which satisfies every clause |
| Pso.FromSwarmStep | pso.py:177-181 | a turn that keeps the global best or replaces it by the turning particle's personal best keeps the global best traceable to the round's start or to a personal best of a particle that has had its turn |
| Pso.TurnTaken | pso.py:246-259 | one particle's turn extends what the round has done: the particles that have had their turn hold their local-search results and are ranked against the global best, and the rest keep their starting positions |
| Pso.RoundCloses | pso.py:184-189 | reweighing against the global best left by the particle turns leaves its recorded fitness accurate and completes a `Round` |
| Pso.Iterate | pso.py:241-261 | one round (`Round`) moves every particle to the local-search result (`PsoLocalSearch.SearchFrom`) of its starting position, keeps the swarm invariants (literals in range, weights of at least 1, 0/1 positions, accurate global-best fitness), never lowers the global-best fitness, never lowers any particle position's fitness under the weights the round started with, keeps the literal lists, and reweighs against the final global best; afterwards every particle records the fitness of its post-search position, its personal best is at least that fit, and the global best is at least as fit as every personal best; the new global best is the old one, a starting position of the round, or a particle's new personal best |
| Pso.TrajectoryExtends | pso.py:238-261 | a further round after a swarm whose global best leaves some clause unsatisfied extends the run's sequence of rounds |
| Pso.Run | pso.py:232-265 | the loop stops when the global best satisfies every clause or after `max_iteration` rounds; with no clauses or `max_iteration <= 0` no round runs; the reported count is the global best's satisfied-clause count, and a full count means every clause is satisfied; the swarms of the run are `Init` of the formula, then one `Round` (the contract of `Pso.Iterate`) after another up to the final swarm, and every swarm strictly between the first and the last left some clause unsatisfied |
| GeneticOps.FirstMinIndex | ea.py:83 | the first chromosome of least fitness: all others are at least as fit and all earlier ones strictly fitter |
| GeneticOps.FirstMaxIndex | ea.py:169 | the first chromosome of greatest fitness, as Python's `max` with a key picks it |
| GeneticOps.SortByFitness | ea.py:83 | the sort is a permutation of its input, in ascending fitness order |
| GeneticOps.PrefixBelowRest | ea.py:84 | in an ascending sequence a prefix stays ascending, is a sub-multiset, and is no fitter than anything outside it |
| GeneticOps.Selection | ea.py:77-86 | selection returns `min(10, n)` chromosomes in ascending fitness order, drawn as a sub-multiset of the input, each no fitter than any unselected chromosome |
| GeneticOps.Crossover | ea.py:89-105 | children have the parents' lengths; at gene `i` the first child takes `a[i]` and the second `b[i]` when the draw is below `crossover_p`, and the swap otherwise; 0/1 genes stay 0/1 |
| GeneticOps.CrossoverConservesGenes | ea.py:96-103 | the two children together carry exactly the multiset of the parents' genes, i.e. they are complementary |
| GeneticOps.CrossoverSwapsWithParents | ea.py:96-103 | exchanging the parents exchanges the children |
| GeneticOps.CrossoverAsWritten | ea.py:93-105 | as written, the second child is always parent `b` unchanged, and the first child is parent `a` overwritten in place |
| GeneticOps.CrossoverAsWrittenLosesGenes | ea.py:93-103 | with `a = [0]`, `b = [1]` and a swap draw, the as-written children are `([1],[1])`, but the intended ones are `([1],[0])` |
| GeneticOps.Mutation | ea.py:108-118 | below the rate, exactly the chosen gene changes, to a 0/1 value, and all others are untouched; otherwise the chromosome is unchanged; length and 0/1 domain are kept |
| GeneticOps.MutationUndoesItself | ea.py:116 | on a 0/1 chromosome, repeating the same mutation restores it |
| Genetic.Evaluate | ea.py:40-60 | fitness is the satisfied-clause count in `[0, num_clauses]`; the chromosome is recorded as the optimum exactly when the count equals `num_clauses`, otherwise the record is unchanged; a recorded optimum always satisfies every clause |
| Genetic.SelectionKeepsLength | ea.py:82-84 | every solution selection hands on is one of the population's, so it keeps the population's chromosome length |
| Genetic.OptimumStops | ea.py:73-74 | once an evaluation meets every clause, the stop condition holds |
| Genetic.Populate | ea.py:46-68 | the initial population stores each solution with its count, and records an optimum iff one of them is optimal; the recorded optimum is then the last optimal solution, since each optimal evaluation overwrites the record |
| Genetic.RecordsLastAppend | ea.py:46-47 | evaluating one batch after another leaves recorded the last optimal solution of the two batches together, or the earlier record when neither holds an optimum |
| Genetic.Offspring | ea.py:132-137 | the children of a pass have `num_literals` genes and keep the 0/1 domain |
| Genetic.Pass | ea.py:132-141 | one pass appends the two mutated children, each stored with its count; an optimum is recorded iff one child is optimal, and then it is the last optimal child |
| Genetic.CreateGeneration | ea.py:121-143 | the new generation has `generation_size` members if even and `generation_size + 1` if odd; pair `k` is the offspring of the `k`-th draw; each stored fitness is the count of its solution; the 0/1 domain is kept; an optimum is recorded iff a child is optimal, and then it is the last optimal child of the generation |
| Genetic.RunResult | ea.py:165-169 | the result is the recorded optimum with fitness `num_clauses`, or otherwise the chromosome of greatest fitness that comes first in the final population: no member is fitter and every earlier member is strictly less fit; when the recorded optimum is the solution of some member, the result is a member of the population |
| Genetic.RunResultAsWritten | ea.py:166-169 | as written, `run` returns a chromosome only when a non-empty optimum was recorded, and nothing otherwise |
| Genetic.AsWrittenRunLosesResult | ea.py:169 | without a recorded optimum the as-written result is nothing, though a fittest chromosome exists in the population |
| Genetic.NextGeneration | ea.py:154-161 | the next generation is bred, pair by pair, from the selection of the current one with this generation's draws; each child is stored with its count; its size is `generation_size` rounded up to even; an optimum is recorded iff one was already recorded or a child is optimal; a child optimum replaces the record by the last optimal child |
| Genetic.Evolve | ea.py:146-163 | the history starts with the evaluated initial solutions, and each later generation is bred from the selection of the one before with that generation's draws; at most `max_iterations + 1` generations are bred; on exit the stop condition holds; an optimum is recorded iff some generation held one, and none before the last |
| Genetic.ProgressLast | ea.py:46-74 | since the loop stops at the first optimum, an optimum is recorded iff the final population holds one, and it is the final population's last optimal chromosome; before any reproduction the population is the evaluated initial solutions |
| Genetic.Run | ea.py:146-169 | the history of `Genetic.Evolve`; an optimum is recorded iff the final population holds one; with no iteration the population is the evaluated initial solutions; the final population holds at least two evaluated chromosomes and the result is `Genetic.RunResult` of the final state, so a recorded optimum is returned with fitness `num_clauses` and otherwise the first fittest final chromosome; the recorded optimum is the last optimal chromosome of the final population, so the result is always a member of the final population |

## Findings

| source | as written | input that shows it | evidently intended | confidence | as-written member | corrected member |
|---|---|---|---|---|---|---|
| ea.py:93-105 | `ab = a; ba = b` share the parents' lists, so the second child is always parent `b` and parent `a` is overwritten in place | `a = [0]`, `b = [1]`, draw `0.9` with `crossover_p = 0.5`: children `([1],[1])` | complementary children `([1],[0])`, parents untouched | high (not executed) | GeneticOps.CrossoverAsWritten | GeneticOps.Crossover |
| pso.py:173 | when the personal best is replaced, `particle.fitness` is set to the old personal best's fitness | clause `[1]`, position `[1]`, personal best `[0]`, recorded fitness 1: recorded fitness becomes 0. In pso.py as written this input cannot arise: the personal best is the position list itself (pso.py:19, 174), so the update never fires after local search (`Pso.AliasedPersonalBestNeverReplaced`). It arises once the personal best is kept apart, as the `Particle.__init__` docstring (pso.py:15) names it | the recorded fitness stays the fitness of the particle's position | low (not executed) | Pso.UpdatePersonalBestAsWritten | Pso.UpdatePersonalBest |
| ea.py:169 | the no-optimum branch computes `max(...)` but does not return it, so `run` returns `None` | any run in which no chromosome satisfies every clause, e.g. the four clauses of `Clauses.UnsatisfiableCore` | return the fittest chromosome of the final population | high (not executed) | Genetic.RunResultAsWritten | Genetic.RunResult |

The discrepancies are exhibited by these lemmas:

- `GeneticOps.CrossoverAsWrittenLosesGenes` for crossover.
- `Pso.AsWrittenPersonalBestUnderstatesFitness` and `Pso.AsWrittenPersonalBestExample` for the personal best.
- `Genetic.AsWrittenRunLosesResult` for the result of `run`.

The corrected members carry the intended properties:

- `GeneticOps.CrossoverConservesGenes`;
- the contract of `Pso.UpdatePersonalBest`, and `Pso.Iterate`, whose particles record the fitness of their post-search positions;
- the contract of `Genetic.RunResult`.

The rest of the model uses the corrected members.

## Left out

- File parsing (`w_clauses_from_file`, `clauses_from_file`): file handles and Python string and `int` parsing are I/O plumbing. The model starts from the clause lists and the literal count.
- `argparse` entry points and all progress printing: these are console I/O with no effect on the results.
- Velocity update, sigmoid and `update_position`: they are floating-point arithmetic with `exp`, and the position update is never called. Velocities therefore never reach a position, and `Pso.Particle` has no velocity field.
- Random generation (`randint`, `random`, `random.sample`, `Particle.__init__`, `initial_population`): every draw is a parameter.
  - `random.sample` is modelled as two distinct pool indices.
  - Float draws are compared against the rates as exact reals.
  - No distributional claim is made.
- `PSO.stop_condition`: nothing calls it.
- Pso.Init: requires at least one initial position. With zero particles pso.py raises `IndexError` at `self.swarm[0]` (pso.py:117); that error path is not modelled, and `Pso.Run` inherits the precondition.
- Particle initial fitness: pso.py initialises it to minus infinity (pso.py:22). The model uses 0, because the value is overwritten in `calc_fitness_and_global_best` before anything reads it.
- List aliasing beyond the findings above: the model uses value semantics throughout.
  - Pso.Iterate: in pso.py, `global_best` is the very list of its owner particle's position (pso.py:159, 181). When that particle's local search later moves it, `update_global_best` (pso.py:178-181) re-syncs `global_best_fitness` in the same turn on a strict gain, and a gain of 0 leaves the fitness right anyway. So the recorded fitness never goes stale. The bits do drift: pso.py's global best follows its owner's plateau moves (same fitness, different valuation), while the model's global best keeps the valuation it was taken from. The clauses that `update_clauses_weight` raises, and the satisfied count that `run_WPSOSAT` tests, are computed from those bits, so the two can diverge after such a move.
  - Pso.Turn: in pso.py the personal best is the position list itself (pso.py:19, 174), so `update_personal_best` never fires and `update_global_best` (pso.py:178) reads the position left by local search. The model keeps the personal best apart, as the `Particle.__init__` docstring (pso.py:15) names a separate personal best solution, and re-records the particle's fitness after local search. Its global-best update therefore sees the fitter of the old personal best and the post-search position, keeping the old one on a tie. The two pick the same valuation when the old personal best is strictly less fit than the post-search position. When the old personal best is equally fit, they agree in fitness but may pick different valuations: this happens in a first round whenever local search makes only plateau moves. When the old personal best is fitter, which can happen only in later rounds, the model's global-best update sees a higher fitness than pso.py's.
  - In `ea.py`, mutation and later crossovers write into lists that the reproduction pool and earlier children share. Stored fitness values can then drift from their solutions. The model keeps them equal.
  - Genetic.Run: "a recorded optimum is returned with fitness `num_clauses`" holds only under value semantics. In ea.py the record is the child list itself (ea.py:47). That list is the first parent's `solution` (ea.py:92), and `mutation` returns it unchanged (ea.py:117). When a later pass of the same `create_generation` draws that pool member again, crossover (ea.py:98-102) or mutation (ea.py:116) writes into the recorded list in place. Example: clauses `[[1]]`, `generation_size = 4`, every initial solution `[0]`. Pass 1 draws parents 0 and 1 with a keep draw, and mutation flips child 1, which is pool[0]'s list, to `[1]`; it is recorded as the optimum. Pass 2 draws parents 0 and 2 with a swap draw, which writes `[0]` back into pool[0]'s list. The loop stops, and `run` returns `Chromosome([0], 0)` (ea.py:167) although an optimum was recorded. The model's record is a value, so it returns `[1]` with fitness 1.
- GeneticOps.SortByFitness: stability is not stated in its contract. Chromosomes of equal fitness keep their input order, but this holds only by construction: the first minimum is always taken first.
- Genetic.Run: requires `generation_size >= 2` and enough valid draws for every generation that may run; smaller sizes are not modelled. On them `run` as written does not always fail. With one chromosome it returns normally when that chromosome is optimal, or when `max_iterations` is negative; otherwise `random.sample` (ea.py:132) raises once a generation is bred. With none, `max` of the empty population (ea.py:158 or 169) raises.
- GeneticOps.Mutation: a mutation draw below the rate on a chromosome with no genes is excluded by its precondition and by `Genetic.PairingValid`. In ea.py that case raises in `random.randint(0, -1)` (ea.py:115); the error path is not modelled.
- Pso.Run: stops when the satisfied count equals the number of clauses in the formula. pso.py:238 compares against `num_clauses` read from the file header (pso.py:79), which can differ from the number of clause lines read. The model assumes the header is accurate; with a header that overstates the count, pso.py runs all `max_iteration` rounds where the model may stop early.

=== FILE: clauses.dfy ===
/**
 Clause evaluation shared by the genetic engine and the weighted particle swarm.

 A literal is a signed integer whose magnitude is a 1-based variable index and
 whose sign is negation; a clause is a sequence of literals; a valuation holds
 the value of variable `i + 1` at index `i`. Both engines evaluate a clause the
 same way, so the evaluator lives here once.
 */
module Clauses {

  type Literal = int
  type Clause = seq<Literal>
  type Valuation = seq<int>

  /** Every entry of the valuation is 0 or 1. */
  predicate IsBits(v: Valuation) {
    forall i :: 0 <= i < |v| ==> v[i] == 0 || v[i] == 1
  }

  /** `1 <= |l| <= n`: the literal names one of the `n` variables. Literal 0 is excluded. */
  predicate LiteralInRange(l: Literal, n: int) {
    if l < 0 then -l <= n else 1 <= l <= n
  }

  predicate ClauseInRange(c: Clause, n: int) {
    forall i :: 0 <= i < |c| ==> LiteralInRange(c[i], n)
  }

  predicate FormulaInRange(cs: seq<Clause>, n: int) {
    forall i :: 0 <= i < |cs| ==> ClauseInRange(cs[i], n)
  }

  /** The value a literal reads under `v`: `v[l-1]` for a positive literal, `1 - v[-l-1]` for a negative one. */
  function LiteralValue(v: Valuation, l: Literal): int
    requires LiteralInRange(l, |v|)
  {
    if l < 0 then 1 - v[-l - 1] else v[l - 1]
  }

  /** A clause is satisfied iff one of its literals reads 1; the scan stops at the first such literal. */
  function IsClauseSatisfied(v: Valuation, c: Clause): (r: bool)
    requires ClauseInRange(c, |v|)
    ensures r <==> exists i :: 0 <= i < |c| && LiteralValue(v, c[i]) == 1
  {
    if |c| == 0 then false
    else if LiteralValue(v, c[0]) == 1 then true
    else
      var rest := IsClauseSatisfied(v, c[1..]);
      assert forall i :: 1 <= i < |c| ==> c[i] == c[1..][i - 1];
      rest
  }

  /** Reordering (or duplicating) the literals of a clause does not change whether it is satisfied. */
  lemma SatisfactionIgnoresLiteralOrder(v: Valuation, c1: Clause, c2: Clause)
    requires ClauseInRange(c1, |v|) && ClauseInRange(c2, |v|)
    requires forall l :: l in c1 <==> l in c2
    ensures IsClauseSatisfied(v, c1) == IsClauseSatisfied(v, c2)
  {
    if IsClauseSatisfied(v, c1) {
      var i :| 0 <= i < |c1| && LiteralValue(v, c1[i]) == 1;
      assert c1[i] in c2;
      var j :| 0 <= j < |c2| && c2[j] == c1[i];
      assert LiteralValue(v, c2[j]) == 1;
    }
    if IsClauseSatisfied(v, c2) {
      var j :| 0 <= j < |c2| && LiteralValue(v, c2[j]) == 1;
      assert c2[j] in c1;
      var i :| 0 <= i < |c1| && c1[i] == c2[j];
      assert LiteralValue(v, c1[i]) == 1;
    }
  }

  /** A permutation of a clause is satisfied exactly when the clause is. */
  lemma SatisfactionIsPermutationInvariant(v: Valuation, c1: Clause, c2: Clause)
    requires ClauseInRange(c1, |v|) && ClauseInRange(c2, |v|)
    requires multiset(c1) == multiset(c2)
    ensures IsClauseSatisfied(v, c1) == IsClauseSatisfied(v, c2)
  {
    forall l
      ensures l in c1 <==> l in c2
    {
      assert l in c1 <==> l in multiset(c1);
      assert l in c2 <==> l in multiset(c2);
    }
    SatisfactionIgnoresLiteralOrder(v, c1, c2);
  }

  /** `v` satisfies every clause of `cs`. */
  predicate AllSatisfied(v: Valuation, cs: seq<Clause>)
    requires FormulaInRange(cs, |v|)
  {
    forall i :: 0 <= i < |cs| ==> IsClauseSatisfied(v, cs[i])
  }

  /** Number of clauses of `cs` that `v` satisfies. */
  function CountSatisfied(v: Valuation, cs: seq<Clause>): (r: nat)
    requires FormulaInRange(cs, |v|)
    ensures r <= |cs|
    ensures r == |cs| <==> AllSatisfied(v, cs)
  {
    if |cs| == 0 then 0
    else
      var rest := CountSatisfied(v, cs[1..]);
      assert forall i :: 1 <= i < |cs| ==> cs[i] == cs[1..][i - 1];
      (if IsClauseSatisfied(v, cs[0]) then 1 else 0) + rest
  }

  /** A two-literal clause is satisfied iff one of its two literals reads 1. */
  lemma PairClause(v: Valuation, x: Literal, y: Literal)
    requires LiteralInRange(x, |v|) && LiteralInRange(y, |v|)
    ensures ClauseInRange([x, y], |v|)
    ensures IsClauseSatisfied(v, [x, y]) <==> LiteralValue(v, x) == 1 || LiteralValue(v, y) == 1
  {
    assert [x, y][1..] == [y];
  }

  /** One step of the count: the first clause, then the rest. */
  lemma CountCons(v: Valuation, cs: seq<Clause>)
    requires |cs| > 0 && FormulaInRange(cs, |v|)
    ensures FormulaInRange(cs[1..], |v|)
    ensures CountSatisfied(v, cs) == (if IsClauseSatisfied(v, cs[0]) then 1 else 0) + CountSatisfied(v, cs[1..])
  {
  }

  /** The count over four clauses, unrolled. */
  lemma CountFour(v: Valuation, cs: seq<Clause>)
    requires |cs| == 4 && FormulaInRange(cs, |v|)
    ensures CountSatisfied(v, cs)
         == (if IsClauseSatisfied(v, cs[0]) then 1 else 0) + (if IsClauseSatisfied(v, cs[1]) then 1 else 0)
          + (if IsClauseSatisfied(v, cs[2]) then 1 else 0) + (if IsClauseSatisfied(v, cs[3]) then 1 else 0)
  {
    var t1 := cs[1..];
    var t2 := t1[1..];
    var t3 := t2[1..];
    assert t1[0] == cs[1] && t2[0] == cs[2] && t3[0] == cs[3];
    CountCons(v, cs);
    CountCons(v, t1);
    CountCons(v, t2);
    CountCons(v, t3);
    assert |t3[1..]| == 0;
  }

  /** The four two-literal clauses over two variables: every 0/1 valuation satisfies exactly three. */
  const UnsatisfiableCore: seq<Clause> := [[1, 2], [-1, 2], [1, -2], [-1, -2]]

  lemma UnsatisfiableCoreScoresThree(v: Valuation)
    requires |v| == 2 && IsBits(v)
    ensures FormulaInRange(UnsatisfiableCore, |v|)
    ensures CountSatisfied(v, UnsatisfiableCore) == 3
  {
    var cs := UnsatisfiableCore;
    assert FormulaInRange(cs, |v|);
    CountFour(v, cs);
    PairClause(v, 1, 2);
    PairClause(v, -1, 2);
    PairClause(v, 1, -2);
    PairClause(v, -1, -2);
    // exactly one of the four clauses reads both of its literals as 0
    assert v[0] == 0 || v[0] == 1;
    assert v[1] == 0 || v[1] == 1;
  }
}

=== FILE: ea.dfy ===
/**
 The evolutionary engine (ea.py, `EA`): evaluate, check the stop condition,
 select, reproduce, repeat.

 In ea.py, `fitness` also records any chromosome that satisfies every
 clause as `top_chromosome`; here that record is an explicit value passed in
 and returned by every evaluation. The initial solutions and every draw of
 every generation are parameters.
 */
module Genetic {
  import opened Clauses
  import opened GeneticOps

  datatype Option<+T> = None | Some(value: T)

  datatype Config = Config(
    maxIterations: int,
    generationSize: int,
    mutationRate: real,
    selectionSize: int,
    crossoverP: real)

  /** The draws one reproduction pass consumes. */
  datatype Pairing = Pairing(
    first: nat,           // pool index of the first parent
    second: nat,          // pool index of the second parent
    draws: seq<real>,     // one crossover draw per gene
    gate1: real, locus1: int,   // mutation draw and flip position, first child
    gate2: real, locus2: int)   // the same for the second child

  /** A pass can be played against a pool of `poolSize` chromosomes of `n` genes. */
  predicate PairingValid(d: Pairing, poolSize: nat, n: nat, mutationRate: real) {
    && d.first < poolSize && d.second < poolSize && d.first != d.second
    && |d.draws| == n
    && (d.gate1 < mutationRate ==> 0 <= d.locus1 < n)
    && (d.gate2 < mutationRate ==> 0 <= d.locus2 < n)
  }

  /** The recorded optimum, if any, is a valuation of `n` variables satisfying every clause. */
  predicate RecordedOptimum(cs: seq<Clause>, n: nat, top: Option<Valuation>) {
    FormulaInRange(cs, n) && (top.Some? ==> |top.value| == n && CountSatisfied(top.value, cs) == |cs|)
  }

  /** Chromosomes of `n` genes whose stored fitness is their count of satisfied clauses. */
  predicate Evaluated(cs: seq<Clause>, n: nat, population: seq<Chromosome>) {
    FormulaInRange(cs, n)
    && forall i :: 0 <= i < |population| ==>
      |population[i].solution| == n && population[i].fitness == CountSatisfied(population[i].solution, cs)
  }

  /** `goal_function`: remember the chromosome when its fitness equals the number of clauses. */
  function GoalFunction(numClauses: int, fitness: int, chromosome: Valuation, top: Option<Valuation>): Option<Valuation> {
    if fitness == numClauses then Some(chromosome) else top
  }

  /** `fitness`: the number of satisfied clauses, with the goal function's record threaded through. */
  function Evaluate(cs: seq<Clause>, v: Valuation, top: Option<Valuation>): (r: (nat, Option<Valuation>))
    requires FormulaInRange(cs, |v|)
    ensures r.0 <= |cs|
    ensures r.0 == |cs| <==> AllSatisfied(v, cs)
    ensures r.0 == |cs| ==> r.1 == Some(v)
    ensures r.0 < |cs| ==> r.1 == top
    ensures RecordedOptimum(cs, |v|, top) ==> RecordedOptimum(cs, |v|, r.1)
  {
    var count := CountSatisfied(v, cs);
    (count, GoalFunction(|cs|, count, v, top))
  }

  /** `stop_condition`: past the last iteration, or an optimum has been recorded. */
  predicate StopCondition(iteration: int, maxIterations: int, top: Option<Valuation>) {
    iteration > maxIterations || top.Some?
  }

  /** Once an evaluation meets every clause, the stop condition holds at every later check. */
  lemma OptimumStops(cs: seq<Clause>, v: Valuation, top: Option<Valuation>, iteration: int, maxIterations: int)
    requires FormulaInRange(cs, |v|)
    requires AllSatisfied(v, cs)
    ensures Evaluate(cs, v, top).1 == Some(v)
    ensures StopCondition(iteration, maxIterations, Evaluate(cs, v, top).1)
  {
  }

  /** Evaluates the solutions in order, as the initial population is built. */
  function Populate(cs: seq<Clause>, n: nat, solutions: seq<Valuation>, top: Option<Valuation>)
    : (r: (seq<Chromosome>, Option<Valuation>))
    requires RecordedOptimum(cs, n, top)
    requires forall i :: 0 <= i < |solutions| ==> |solutions[i]| == n
    ensures |r.0| == |solutions|
    ensures Evaluated(cs, n, r.0)
    ensures forall i :: 0 <= i < |solutions| ==> r.0[i].solution == solutions[i]
    ensures RecordedOptimum(cs, n, r.1)
    ensures r.1.Some? <==> top.Some? || HasOptimum(cs, r.0)
    ensures RecordsLast(cs, top, r.0, r.1)
    decreases |solutions|
  {
    if |solutions| == 0 then ([], top)
    else
      var e := Evaluate(cs, solutions[0], top);
      var rest := Populate(cs, n, solutions[1..], e.1);
      PopulateCons(cs, n, top, Chromosome(solutions[0], e.0), e.1, rest.0, rest.1);
      ([Chromosome(solutions[0], e.0)] + rest.0, rest.1)
  }

  /** Putting one evaluated chromosome in front of an evaluated batch: the step of `Populate`. */
  lemma PopulateCons(cs: seq<Clause>, n: nat, before: Option<Valuation>, c: Chromosome, middle: Option<Valuation>,
                     rest: seq<Chromosome>, after: Option<Valuation>)
    requires Evaluated(cs, n, [c]) && Evaluated(cs, n, rest)
    requires c.fitness == |cs| ==> middle == Some(c.solution)
    requires c.fitness != |cs| ==> middle == before
    requires after.Some? <==> middle.Some? || HasOptimum(cs, rest)
    requires RecordsLast(cs, middle, rest, after)
    ensures Evaluated(cs, n, [c] + rest)
    ensures forall i :: 1 <= i < |[c] + rest| ==> ([c] + rest)[i] == rest[i - 1]
    ensures after.Some? <==> before.Some? || HasOptimum(cs, [c] + rest)
    ensures RecordsLast(cs, before, [c] + rest, after)
  {
    EvaluatedAppend(cs, n, [c], rest);
    HasOptimumAppend(cs, [c], rest);
    assert HasOptimum(cs, [c]) <==> c.fitness == |cs| by {
      if c.fitness == |cs| {
        assert [c][0] == c;
      }
    }
    RecordsLastCons(cs, before, c, middle, rest, after);
  }

  /** The two children of one pass: crossover of the two drawn parents, then one mutation each. */
  function Offspring(pool: seq<Chromosome>, n: nat, d: Pairing, config: Config): (children: (Valuation, Valuation))
    requires forall i :: 0 <= i < |pool| ==> |pool[i].solution| == n
    requires PairingValid(d, |pool|, n, config.mutationRate)
    ensures |children.0| == n && |children.1| == n
    ensures IsBits(pool[d.first].solution) && IsBits(pool[d.second].solution) ==>
      IsBits(children.0) && IsBits(children.1)
  {
    var crossed := Crossover(pool[d.first].solution, pool[d.second].solution, d.draws, config.crossoverP);
    (Mutation(crossed.0, d.gate1, config.mutationRate, d.locus1),
     Mutation(crossed.1, d.gate2, config.mutationRate, d.locus2))
  }

  /** Number of reproduction passes needed to reach `generationSize` two children at a time. */
  function Passes(generationSize: int): nat {
    if generationSize <= 0 then 0 else (generationSize + 1) / 2
  }

  /** One reproduction pass: the two children of `d`, each evaluated (and possibly recorded) in turn. */
  function Pass(cs: seq<Clause>, n: nat, pool: seq<Chromosome>, config: Config, d: Pairing, top: Option<Valuation>)
    : (r: (seq<Chromosome>, Option<Valuation>))
    requires RecordedOptimum(cs, n, top)
    requires forall i :: 0 <= i < |pool| ==> |pool[i].solution| == n
    requires PairingValid(d, |pool|, n, config.mutationRate)
    ensures |r.0| == 2
    ensures (r.0[0].solution, r.0[1].solution) == Offspring(pool, n, d, config)
    ensures Evaluated(cs, n, r.0)
    ensures AllBits(pool) ==> AllBits(r.0)
    ensures RecordedOptimum(cs, n, r.1)
    ensures r.1.Some? <==> top.Some? || r.0[0].fitness == |cs| || r.0[1].fitness == |cs|
    ensures RecordsLast(cs, top, r.0, r.1)
  {
    var children := Offspring(pool, n, d, config);
    var first := Evaluate(cs, children.0, top);
    var second := Evaluate(cs, children.1, first.1);
    var a, b := Chromosome(children.0, first.0), Chromosome(children.1, second.0);
    RecordsLastOne(cs, top, a, first.1);
    RecordsLastOne(cs, first.1, b, second.1);
    RecordsLastAppend(cs, top, [a], first.1, [b], second.1);
    assert [a] + [b] == [a, b];
    ([a, b], second.1)
  }

  /** Some chromosome of the population satisfies every clause. */
  predicate HasOptimum(cs: seq<Clause>, population: seq<Chromosome>) {
    exists i :: 0 <= i < |population| && population[i].fitness == |cs|
  }

  /** `batch[k]` satisfies every clause and no later member of `batch` does. */
  predicate LastOptimal(cs: seq<Clause>, batch: seq<Chromosome>, k: int) {
    && 0 <= k < |batch|
    && batch[k].fitness == |cs|
    && forall j :: k < j < |batch| ==> batch[j].fitness != |cs|
  }

  /**
   `after` is the optimum record once `batch` has been evaluated in order from
   the record `before`: each optimal evaluation overwrites the record, so it
   ends as the last optimal member's solution, or unchanged if none is optimal.
   */
  predicate RecordsLast(cs: seq<Clause>, before: Option<Valuation>, batch: seq<Chromosome>, after: Option<Valuation>) {
    if HasOptimum(cs, batch) then exists k :: 0 <= k < |batch| && LastOptimal(cs, batch, k) && after == Some(batch[k].solution)
    else after == before
  }

  /** One evaluation, as `goal_function` records it. */
  lemma RecordsLastOne(cs: seq<Clause>, before: Option<Valuation>, c: Chromosome, after: Option<Valuation>)
    requires c.fitness == |cs| ==> after == Some(c.solution)
    requires c.fitness != |cs| ==> after == before
    ensures RecordsLast(cs, before, [c], after)
  {
    if c.fitness == |cs| {
      assert LastOptimal(cs, [c], 0);
    }
  }

  /** One evaluation followed by a batch. */
  lemma RecordsLastCons(cs: seq<Clause>, before: Option<Valuation>, c: Chromosome, middle: Option<Valuation>,
                        rest: seq<Chromosome>, after: Option<Valuation>)
    requires c.fitness == |cs| ==> middle == Some(c.solution)
    requires c.fitness != |cs| ==> middle == before
    requires RecordsLast(cs, middle, rest, after)
    ensures RecordsLast(cs, before, [c] + rest, after)
  {
    RecordsLastOne(cs, before, c, middle);
    RecordsLastAppend(cs, before, [c], middle, rest, after);
  }

  /** Evaluating `a` and then `b` records what evaluating `a + b` records. */
  lemma RecordsLastAppend(cs: seq<Clause>, before: Option<Valuation>, a: seq<Chromosome>, middle: Option<Valuation>,
                          b: seq<Chromosome>, after: Option<Valuation>)
    requires RecordsLast(cs, before, a, middle) && RecordsLast(cs, middle, b, after)
    ensures RecordsLast(cs, before, a + b, after)
  {
    var ab := a + b;
    HasOptimumAppend(cs, a, b);
    if HasOptimum(cs, b) {
      var k :| 0 <= k < |b| && LastOptimal(cs, b, k) && after == Some(b[k].solution);
      assert ab[|a| + k] == b[k];
      forall j | |a| + k < j < |ab|
        ensures ab[j].fitness != |cs|
      {
        assert ab[j] == b[j - |a|];
      }
      assert LastOptimal(cs, ab, |a| + k);
    } else if HasOptimum(cs, a) {
      var k :| 0 <= k < |a| && LastOptimal(cs, a, k) && middle == Some(a[k].solution);
      assert ab[k] == a[k];
      forall j | k < j < |ab|
        ensures ab[j].fitness != |cs|
      {
        if j < |a| {
          assert ab[j] == a[j];
        } else {
          assert ab[j] == b[j - |a|];
        }
      }
      assert LastOptimal(cs, ab, k);
    }
  }

  /** Every solution of the population is a 0/1 valuation. */
  predicate AllBits(population: seq<Chromosome>) {
    forall i :: 0 <= i < |population| ==> IsBits(population[i].solution)
  }

  /** `generation` holds, pair by pair, the offspring of the first `k` pairings. */
  predicate Bred(generation: seq<Chromosome>, pool: seq<Chromosome>, n: nat, config: Config, pairings: seq<Pairing>, k: nat) {
    && |generation| == 2 * k
    && k <= |pairings|
    && (forall i :: 0 <= i < |pool| ==> |pool[i].solution| == n)
    && forall j :: 0 <= j < k ==>
      && PairingValid(pairings[j], |pool|, n, config.mutationRate)
      && (generation[2 * j].solution, generation[2 * j + 1].solution) == Offspring(pool, n, pairings[j], config)
  }

  lemma EvaluatedAppend(cs: seq<Clause>, n: nat, a: seq<Chromosome>, b: seq<Chromosome>)
    requires Evaluated(cs, n, a) && Evaluated(cs, n, b)
    ensures Evaluated(cs, n, a + b)
  {
    assert forall i :: |a| <= i < |a + b| ==> (a + b)[i] == b[i - |a|];
  }

  lemma AllBitsAppend(a: seq<Chromosome>, b: seq<Chromosome>)
    requires AllBits(a) && AllBits(b)
    ensures AllBits(a + b)
  {
    assert forall i :: |a| <= i < |a + b| ==> (a + b)[i] == b[i - |a|];
  }

  lemma HasOptimumAppend(cs: seq<Clause>, a: seq<Chromosome>, b: seq<Chromosome>)
    ensures HasOptimum(cs, a + b) <==> HasOptimum(cs, a) || HasOptimum(cs, b)
  {
    if HasOptimum(cs, a + b) {
      var i :| 0 <= i < |a + b| && (a + b)[i].fitness == |cs|;
      if i >= |a| {
        assert b[i - |a|] == (a + b)[i];
      }
    }
    if HasOptimum(cs, a) {
      var i :| 0 <= i < |a| && a[i].fitness == |cs|;
      assert (a + b)[i] == a[i];
    }
    if HasOptimum(cs, b) {
      var i :| 0 <= i < |b| && b[i].fitness == |cs|;
      assert (a + b)[|a| + i] == b[i];
    }
  }

  lemma BredAppend(generation: seq<Chromosome>, pool: seq<Chromosome>, n: nat, config: Config,
                   pairings: seq<Pairing>, k: nat, two: seq<Chromosome>)
    requires Bred(generation, pool, n, config, pairings, k)
    requires k < |pairings| && PairingValid(pairings[k], |pool|, n, config.mutationRate)
    requires |two| == 2 && (two[0].solution, two[1].solution) == Offspring(pool, n, pairings[k], config)
    ensures Bred(generation + two, pool, n, config, pairings, k + 1)
  {
    var g := generation + two;
    assert |g| == 2 * (k + 1);
    forall j | 0 <= j <= k
      ensures PairingValid(pairings[j], |pool|, n, config.mutationRate)
      ensures (g[2 * j].solution, g[2 * j + 1].solution) == Offspring(pool, n, pairings[j], config)
    {
      if j < k {
        var x, y := 2 * j, 2 * j + 1;
        assert y < |generation|;
        assert g[x] == generation[x] && g[y] == generation[y];
      } else {
        assert g[2 * k] == two[0] && g[2 * k + 1] == two[1];
      }
    }
  }

  /**
   `create_generation`: passes of two children each until the generation has
   at least `generationSize` members, so an odd size overshoots by one. Each
   child is evaluated as it is stored, which may record an optimum.
   */
  method CreateGeneration(cs: seq<Clause>, n: nat, pool: seq<Chromosome>, config: Config,
                          pairings: seq<Pairing>, top: Option<Valuation>)
    returns (generation: seq<Chromosome>, top': Option<Valuation>)
    requires RecordedOptimum(cs, n, top)
    requires forall i :: 0 <= i < |pool| ==> |pool[i].solution| == n
    requires |pairings| >= Passes(config.generationSize)
    requires forall k :: 0 <= k < Passes(config.generationSize) ==>
      PairingValid(pairings[k], |pool|, n, config.mutationRate)
    ensures |generation| == if config.generationSize <= 0 then 0
                            else if config.generationSize % 2 == 0 then config.generationSize
                            else config.generationSize + 1
    ensures Evaluated(cs, n, generation)
    ensures Bred(generation, pool, n, config, pairings, Passes(config.generationSize))
    ensures AllBits(pool) ==> AllBits(generation)
    ensures RecordedOptimum(cs, n, top')
    ensures top'.Some? <==> top.Some? || HasOptimum(cs, generation)
    ensures RecordsLast(cs, top, generation, top')
  {
    generation := [];
    top' := top;
    var k := 0;
    while |generation| < config.generationSize
      invariant 0 <= k <= Passes(config.generationSize)
      invariant Bred(generation, pool, n, config, pairings, k)
      invariant Evaluated(cs, n, generation)
      invariant AllBits(pool) ==> AllBits(generation)
      invariant RecordedOptimum(cs, n, top')
      invariant top'.Some? <==> top.Some? || HasOptimum(cs, generation)
      invariant RecordsLast(cs, top, generation, top')
      decreases config.generationSize - |generation|
    {
      var step := Pass(cs, n, pool, config, pairings[k], top');
      BredAppend(generation, pool, n, config, pairings, k, step.0);
      EvaluatedAppend(cs, n, generation, step.0);
      HasOptimumAppend(cs, generation, step.0);
      RecordsLastAppend(cs, top, generation, top', step.0, step.1);
      if AllBits(pool) {
        AllBitsAppend(generation, step.0);
      }
      generation := generation + step.0;
      top' := step.1;
      k := k + 1;
    }
  }

  /** Size of the population that `selection` sees in generation `g`. */
  function PopulationSize(generationSize: int, g: nat): int {
    if g == 0 then generationSize
    else if generationSize % 2 == 0 then generationSize
    else generationSize + 1
  }

  /** Size of the reproduction pool in generation `g`. */
  function PoolSize(generationSize: int, g: nat): nat {
    var size := PopulationSize(generationSize, g);
    if size < 0 then 0 else if size < SelectionCount then size else SelectionCount
  }

  /**
   The result the comment at ea.py:165 and the `goal_function` docstring
   (ea.py:42-43) describe: the recorded optimum re-evaluated, or else the
   first fittest chromosome of the final population. A recorded optimum is
   read as a truth value, as ea.py does, so an empty valuation (no variables
   at all) counts as absent.
   */
  function RunResult(cs: seq<Clause>, n: nat, top: Option<Valuation>, population: seq<Chromosome>): (r: Chromosome)
    requires RecordedOptimum(cs, n, top)
    requires Evaluated(cs, n, population)
    requires |population| >= 1
    ensures |r.solution| == n && r.fitness == CountSatisfied(r.solution, cs)
    ensures top.Some? ==> r.fitness == |cs|
    ensures top.Some? && top.value != [] ==> r.solution == top.value
    ensures top.None? || top.value == [] ==> exists k :: IsFirstFittest(population, k) && r == population[k]
    ensures (top.Some? ==> exists k :: 0 <= k < |population| && population[k].solution == top.value) ==>
      r in population
  {
    if top.Some? && top.value != [] then Chromosome(top.value, CountSatisfied(top.value, cs))
    else
      var k := FirstMaxIndex(population);
      assert IsFirstFittest(population, k);
      assert top.Some? ==> population[k].solution == [] == top.value;
      population[k]
  }

  /** The result logic of `run` in ea.py as written: the path without an optimum computes the fittest chromosome and drops it. */
  function RunResultAsWritten(cs: seq<Clause>, top: Option<Valuation>): (r: Option<Chromosome>)
    requires top.Some? ==> FormulaInRange(cs, |top.value|)
    ensures r.Some? <==> top.Some? && top.value != []
    ensures r.Some? ==> r.value.solution == top.value
  {
    if top.Some? && top.value != [] then Some(Chromosome(top.value, CountSatisfied(top.value, cs))) else None
  }

  /** Without a recorded optimum, `run` as written in ea.py returns nothing where a fittest chromosome exists. */
  lemma AsWrittenRunLosesResult(cs: seq<Clause>, n: nat, population: seq<Chromosome>)
    requires Evaluated(cs, n, population)
    requires |population| >= 1
    ensures RunResultAsWritten(cs, None) == None
    ensures RunResult(cs, n, None, population) in population
  {
  }

  /** Selection draws from the population, so every selected solution still has `n` genes. */
  lemma SelectionKeepsLength(population: seq<Chromosome>, n: nat)
    requires forall i :: 0 <= i < |population| ==> |population[i].solution| == n
    ensures forall i :: 0 <= i < |Selection(population)| ==> |Selection(population)[i].solution| == n
  {
    var pool := Selection(population);
    forall i | 0 <= i < |pool|
      ensures |pool[i].solution| == n
    {
      assert pool[i] in multiset(population);
    }
  }

  /** `next` is the evaluated offspring of the selection from `population`, bred pair by pair from `draws`. */
  predicate Generated(cs: seq<Clause>, n: nat, config: Config, population: seq<Chromosome>,
                      draws: seq<Pairing>, next: seq<Chromosome>) {
    Evaluated(cs, n, next) && Bred(next, Selection(population), n, config, draws, Passes(config.generationSize))
  }

  /**
   `history[g]` is the population of generation `g`: first the evaluated
   initial solutions, then each generation bred from the selection of the one
   before with the draws `pairings[g]`.
   */
  predicate Trace(cs: seq<Clause>, n: nat, config: Config, initial: seq<Valuation>, pairings: seq<seq<Pairing>>,
                  history: seq<seq<Chromosome>>)
    requires FormulaInRange(cs, n)
    requires forall i :: 0 <= i < |initial| ==> |initial[i]| == n
    decreases |history|
  {
    && 1 <= |history| <= |pairings| + 1
    && if |history| == 1 then history[0] == Populate(cs, n, initial, None).0
       else
         var g := |history| - 2;
         && Trace(cs, n, config, initial, pairings, history[..g + 1])
         && Generated(cs, n, config, history[g], pairings[g], history[g + 1])
  }

  /** Some generation of `history` holds a chromosome that satisfies every clause. */
  predicate OptimumSeen(cs: seq<Clause>, history: seq<seq<Chromosome>>) {
    exists g :: 0 <= g < |history| && HasOptimum(cs, history[g])
  }

  lemma OptimumSeenAppend(cs: seq<Clause>, history: seq<seq<Chromosome>>, next: seq<Chromosome>)
    ensures (history + [next])[..|history|] == history
    ensures OptimumSeen(cs, history + [next]) <==> OptimumSeen(cs, history) || HasOptimum(cs, next)
  {
    var h := history + [next];
    assert h[..|history|] == history;
    assert h[|history|] == next;
    if OptimumSeen(cs, history) {
      var g :| 0 <= g < |history| && HasOptimum(cs, history[g]);
      assert h[g] == history[g];
    }
    if OptimumSeen(cs, h) {
      var g :| 0 <= g < |h| && HasOptimum(cs, h[g]);
      if g < |history| {
        assert h[g] == history[g];
      }
    }
  }

  lemma TraceAppend(cs: seq<Clause>, n: nat, config: Config, initial: seq<Valuation>, pairings: seq<seq<Pairing>>,
                    history: seq<seq<Chromosome>>, next: seq<Chromosome>)
    requires FormulaInRange(cs, n)
    requires forall i :: 0 <= i < |initial| ==> |initial[i]| == n
    requires Trace(cs, n, config, initial, pairings, history)
    requires |history| <= |pairings|
    requires Generated(cs, n, config, history[|history| - 1], pairings[|history| - 1], next)
    ensures Trace(cs, n, config, initial, pairings, history + [next])
  {
    var h := history + [next];
    assert h[..|history|] == history;
    assert h[|history| - 1] == history[|history| - 1] && h[|history|] == next;
    assert Trace(cs, n, config, initial, pairings, h[..|history|]);
    assert Generated(cs, n, config, h[|history| - 1], pairings[|history| - 1], h[|history|]);
  }

  /**
   What the run loop keeps after `iterations` generations: `history` traces
   every generation from the initial one, `population` is the last of them,
   an optimum is recorded exactly when some generation held one, and none
   did before the last generation was made.
   */
  predicate Progress(cs: seq<Clause>, n: nat, config: Config, initial: seq<Valuation>, pairings: seq<seq<Pairing>>,
                     history: seq<seq<Chromosome>>, population: seq<Chromosome>, top: Option<Valuation>, iterations: nat)
    requires FormulaInRange(cs, n)
    requires forall i :: 0 <= i < |initial| ==> |initial[i]| == n
  {
    && Trace(cs, n, config, initial, pairings, history)
    && |history| == iterations + 1
    && population == history[iterations]
    && (top.Some? <==> OptimumSeen(cs, history))
    && (forall g :: 0 <= g < iterations ==> !HasOptimum(cs, history[g]))
    && RecordsLast(cs, None, population, top)
  }

  /** Before the loop: the evaluated initial population is the whole history. */
  lemma ProgressInit(cs: seq<Clause>, n: nat, config: Config, initial: seq<Valuation>, pairings: seq<seq<Pairing>>)
    requires FormulaInRange(cs, n)
    requires forall i :: 0 <= i < |initial| ==> |initial[i]| == n
    ensures var start := Populate(cs, n, initial, None);
      Progress(cs, n, config, initial, pairings, [start.0], start.0, start.1, 0)
  {
    var start := Populate(cs, n, initial, None);
    var history := [start.0];
    assert history[0] == start.0;
    assert OptimumSeen(cs, history) <==> HasOptimum(cs, start.0);
  }

  /** One more generation, made while no optimum was recorded, keeps `Progress`. */
  lemma ProgressStep(cs: seq<Clause>, n: nat, config: Config, initial: seq<Valuation>, pairings: seq<seq<Pairing>>,
                     history: seq<seq<Chromosome>>, population: seq<Chromosome>, top: Option<Valuation>, iterations: nat,
                     next: seq<Chromosome>, top': Option<Valuation>)
    requires FormulaInRange(cs, n)
    requires forall i :: 0 <= i < |initial| ==> |initial[i]| == n
    requires Progress(cs, n, config, initial, pairings, history, population, top, iterations)
    requires top.None? && iterations < |pairings|
    requires Generated(cs, n, config, population, pairings[iterations], next)
    requires top'.Some? <==> HasOptimum(cs, next)
    requires RecordsLast(cs, None, next, top')
    ensures Progress(cs, n, config, initial, pairings, history + [next], next, top', iterations + 1)
  {
    TraceAppend(cs, n, config, initial, pairings, history, next);
    OptimumSeenAppend(cs, history, next);
    var h := history + [next];
    forall g | 0 <= g < iterations + 1
      ensures !HasOptimum(cs, h[g])
    {
      assert h[g] == history[g];
    }
  }

  /**
   What `Progress` tells about the last generation alone: an optimum is
   recorded exactly when that generation holds one, and before any
   reproduction it is the evaluated initial population.
   */
  lemma ProgressLast(cs: seq<Clause>, n: nat, config: Config, initial: seq<Valuation>, pairings: seq<seq<Pairing>>,
                     history: seq<seq<Chromosome>>, population: seq<Chromosome>, top: Option<Valuation>, iterations: nat)
    requires FormulaInRange(cs, n)
    requires forall i :: 0 <= i < |initial| ==> |initial[i]| == n
    requires Progress(cs, n, config, initial, pairings, history, population, top, iterations)
    ensures top.Some? <==> HasOptimum(cs, population)
    ensures iterations == 0 ==> population == Populate(cs, n, initial, None).0
    ensures top.Some? ==>
      exists k :: 0 <= k < |population| && LastOptimal(cs, population, k) && top.value == population[k].solution
  {
    if OptimumSeen(cs, history) {
      var g :| 0 <= g < |history| && HasOptimum(cs, history[g]);
      assert g == iterations;
    }
  }

  /**
   One turn of the run loop: select the reproduction pool from generation
   `g` and breed generation `g + 1` from it with the draws `draws`.
   */
  method NextGeneration(cs: seq<Clause>, n: nat, config: Config, population: seq<Chromosome>,
                        draws: seq<Pairing>, g: nat, top: Option<Valuation>)
    returns (next: seq<Chromosome>, top': Option<Valuation>)
    requires RecordedOptimum(cs, n, top)
    requires Evaluated(cs, n, population)
    requires config.generationSize >= 2
    requires |population| == PopulationSize(config.generationSize, g)
    requires |draws| >= Passes(config.generationSize)
    requires forall k :: 0 <= k < Passes(config.generationSize) ==>
      PairingValid(draws[k], PoolSize(config.generationSize, g), n, config.mutationRate)
    ensures Generated(cs, n, config, population, draws, next)
    ensures |next| == PopulationSize(config.generationSize, g + 1)
    ensures RecordedOptimum(cs, n, top')
    ensures top'.Some? <==> top.Some? || HasOptimum(cs, next)
    ensures RecordsLast(cs, top, next, top')
  {
    var pool := Selection(population);
    assert |pool| == PoolSize(config.generationSize, g);
    SelectionKeepsLength(population, n);
    next, top' := CreateGeneration(cs, n, pool, config, draws, top);
  }

  /** Every generation has draws for all its passes, each playable against that generation's pool. */
  predicate DrawsValid(config: Config, n: nat, pairings: seq<seq<Pairing>>) {
    forall g :: 0 <= g < |pairings| ==>
      && |pairings[g]| >= Passes(config.generationSize)
      && forall k :: 0 <= k < Passes(config.generationSize) ==>
        PairingValid(pairings[g][k], PoolSize(config.generationSize, g), n, config.mutationRate)
  }

  /**
   The loop of `run`: evaluate the initial population, then select and
   reproduce until the stop condition holds. `pairings[g]` holds the draws of
   generation `g`; the ghost `history` lists every generation evaluated, the
   initial population first.
   */
  method Evolve(cs: seq<Clause>, n: nat, config: Config, initial: seq<Valuation>, pairings: seq<seq<Pairing>>)
    returns (population: seq<Chromosome>, top: Option<Valuation>, iterations: nat, ghost history: seq<seq<Chromosome>>)
    requires FormulaInRange(cs, n)
    requires |initial| == config.generationSize >= 2
    requires forall i :: 0 <= i < |initial| ==> |initial[i]| == n
    requires |pairings| > config.maxIterations
    requires DrawsValid(config, n, pairings)
    ensures iterations == 0 || iterations <= config.maxIterations + 1
    ensures StopCondition(iterations, config.maxIterations, top)
    ensures Progress(cs, n, config, initial, pairings, history, population, top, iterations)
    ensures |population| == PopulationSize(config.generationSize, iterations)
    ensures RecordedOptimum(cs, n, top) && Evaluated(cs, n, population)
  {
    var initialPopulation := Populate(cs, n, initial, None);
    population, top := initialPopulation.0, initialPopulation.1;
    iterations := 0;
    history := [population];
    ProgressInit(cs, n, config, initial, pairings);
    while !StopCondition(iterations, config.maxIterations, top)
      invariant iterations == 0 || iterations <= config.maxIterations + 1
      invariant |population| == PopulationSize(config.generationSize, iterations)
      invariant Evaluated(cs, n, population)
      invariant RecordedOptimum(cs, n, top)
      invariant Progress(cs, n, config, initial, pairings, history, population, top, iterations)
      decreases config.maxIterations + 1 - iterations
    {
      var next, top' := NextGeneration(cs, n, config, population, pairings[iterations], iterations, top);
      ProgressStep(cs, n, config, initial, pairings, history, population, top, iterations, next, top');
      history := history + [next];
      population, top := next, top';
      iterations := iterations + 1;
    }
  }

  /**
   `run`: the loop, then the result. At most `maxIterations + 1` generations
   are made; an optimum is recorded exactly when the last one holds one.
   */
  method Run(cs: seq<Clause>, n: nat, config: Config, initial: seq<Valuation>, pairings: seq<seq<Pairing>>)
    returns (result: Chromosome, population: seq<Chromosome>, top: Option<Valuation>, iterations: nat,
             ghost history: seq<seq<Chromosome>>)
    requires FormulaInRange(cs, n)
    requires |initial| == config.generationSize >= 2
    requires forall i :: 0 <= i < |initial| ==> |initial[i]| == n
    requires |pairings| > config.maxIterations
    requires DrawsValid(config, n, pairings)
    ensures iterations == 0 || iterations <= config.maxIterations + 1
    ensures StopCondition(iterations, config.maxIterations, top)
    ensures Progress(cs, n, config, initial, pairings, history, population, top, iterations)
    ensures top.Some? <==> HasOptimum(cs, population)
    ensures iterations == 0 ==> population == Populate(cs, n, initial, None).0
    ensures top.Some? ==>
      exists k :: 0 <= k < |population| && LastOptimal(cs, population, k) && top.value == population[k].solution
    ensures RecordedOptimum(cs, n, top) && Evaluated(cs, n, population) && |population| >= 2
      && result == RunResult(cs, n, top, population)
    ensures result in population
  {
    population, top, iterations, history := Evolve(cs, n, config, initial, pairings);
    ProgressLast(cs, n, config, initial, pairings, history, population, top, iterations);
    result := RunResult(cs, n, top, population);
  }
}

=== FILE: genetic_ops.dfy ===
/**
 The genetic operators of the evolutionary engine (ea.py): selection of the
 reproduction pool, uniform crossover and single-flip mutation. Every random
 draw ea.py makes is a parameter: crossover takes the per-gene uniform
 draws, mutation takes the gating draw and the position it would flip.
 */
module GeneticOps {
  import opened Clauses

  /** A candidate valuation with the number of clauses it satisfied when it was evaluated. */
  datatype Chromosome = Chromosome(solution: Valuation, fitness: int)

  /** The pool size `selection` takes; ea.py writes the literal 10 and does not consult `selection_size`. */
  const SelectionCount: nat := 10

  predicate Ascending(s: seq<Chromosome>) {
    forall i, j :: 0 <= i <= j < |s| ==> s[i].fitness <= s[j].fitness
  }

  /** Index of the first chromosome of least fitness. */
  function FirstMinIndex(s: seq<Chromosome>): (k: nat)
    requires |s| > 0
    ensures k < |s|
    ensures forall j :: 0 <= j < |s| ==> s[k].fitness <= s[j].fitness
    ensures forall j :: 0 <= j < k ==> s[j].fitness > s[k].fitness
  {
    if |s| == 1 then 0
    else
      var k := FirstMinIndex(s[1..]) + 1;
      assert forall j :: 1 <= j < |s| ==> s[j] == s[1..][j - 1];
      if s[0].fitness <= s[k].fitness then 0 else k
  }

  /** `k` indexes the first chromosome of greatest fitness in `s`: none is fitter, and every earlier one is strictly less fit. */
  predicate IsFirstFittest(s: seq<Chromosome>, k: int) {
    && 0 <= k < |s|
    && (forall j :: 0 <= j < |s| ==> s[j].fitness <= s[k].fitness)
    && forall j :: 0 <= j < k ==> s[j].fitness < s[k].fitness
  }

  /** Index of the first chromosome of greatest fitness, as Python's `max` with a key returns it in ea.py. */
  function FirstMaxIndex(s: seq<Chromosome>): (k: nat)
    requires |s| > 0
    ensures k < |s|
    ensures forall j :: 0 <= j < |s| ==> s[j].fitness <= s[k].fitness
    ensures forall j :: 0 <= j < k ==> s[j].fitness < s[k].fitness
  {
    if |s| == 1 then 0
    else
      var k := FirstMaxIndex(s[1..]) + 1;
      assert forall j :: 1 <= j < |s| ==> s[j] == s[1..][j - 1];
      if s[0].fitness >= s[k].fitness then 0 else k
  }

  /** Every member of a sub-multiset is a member of the whole. */
  lemma SubMultisetMembers(t: seq<Chromosome>, s: seq<Chromosome>)
    requires multiset(t) <= multiset(s)
    ensures forall x :: x in t ==> x in s
  {
    forall x | x in t
      ensures x in s
    {
      assert x in multiset(t);
    }
  }

  /** An ascending sequence stays ascending when an element no fitter than any of its members goes in front. */
  lemma PrependKeepsAscending(m: Chromosome, t: seq<Chromosome>)
    requires Ascending(t)
    requires forall x :: x in t ==> m.fitness <= x.fitness
    ensures Ascending([m] + t)
  {
    var r := [m] + t;
    forall i, j | 0 <= i <= j < |r|
      ensures r[i].fitness <= r[j].fitness
    {
      if i == 0 {
        if j > 0 {
          assert r[j] == t[j - 1];
          assert r[j] in t;
        }
      } else {
        assert r[i] == t[i - 1] && r[j] == t[j - 1];
      }
    }
  }

  /**
   Stable ascending sort by fitness: the first chromosome of least fitness
   goes first, so chromosomes of equal fitness keep their input order.
   */
  function SortByFitness(s: seq<Chromosome>): (r: seq<Chromosome>)
    ensures |r| == |s|
    ensures multiset(r) == multiset(s)
    ensures Ascending(r)
    decreases |s|
  {
    if |s| == 0 then []
    else
      var k := FirstMinIndex(s);
      var rest := s[..k] + s[k + 1..];
      assert s == s[..k] + [s[k]] + s[k + 1..];
      assert multiset(s) == multiset(rest) + multiset{s[k]};
      var sortedRest := SortByFitness(rest);
      SubMultisetMembers(sortedRest, s);
      PrependKeepsAscending(s[k], sortedRest);
      [s[k]] + sortedRest
  }

  /** In an ascending sequence every element outside a prefix is at least as fit as every element in it. */
  lemma PrefixBelowRest(sorted: seq<Chromosome>, m: nat)
    requires Ascending(sorted) && m <= |sorted|
    ensures Ascending(sorted[..m])
    ensures multiset(sorted[..m]) <= multiset(sorted)
    ensures forall x, i :: x in multiset(sorted) - multiset(sorted[..m]) && 0 <= i < m ==> sorted[i].fitness <= x.fitness
  {
    var r := sorted[..m];
    assert sorted == r + sorted[m..];
    assert multiset(sorted) == multiset(r) + multiset(sorted[m..]);
    forall x, i | x in multiset(sorted) - multiset(r) && 0 <= i < m
      ensures sorted[i].fitness <= x.fitness
    {
      assert x in multiset(sorted[m..]);
      assert x in sorted[m..];
      var j :| m <= j < |sorted| && sorted[j] == x;
    }
  }

  /**
   `selection`: the (at most) ten chromosomes of LOWEST fitness, in ascending
   order. Every chromosome left out is at least as fit as every one taken.
   */
  function Selection(s: seq<Chromosome>): (r: seq<Chromosome>)
    ensures |r| == if |s| < SelectionCount then |s| else SelectionCount
    ensures Ascending(r)
    ensures multiset(r) <= multiset(s)
    ensures forall x, i :: x in multiset(s) - multiset(r) && 0 <= i < |r| ==> r[i].fitness <= x.fitness
  {
    var sorted := SortByFitness(s);
    var m := if |s| < SelectionCount then |s| else SelectionCount;
    PrefixBelowRest(sorted, m);
    sorted[..m]
  }

  /**
   Uniform crossover as its documentation describes it: at gene `i` the first
   child takes the first parent's gene and the second child the second's when
   the draw falls below `crossoverP`, and the other way round otherwise.
   Only the first `|a|` genes are drawn for.
   */
  function Crossover(a: Valuation, b: Valuation, draws: seq<real>, crossoverP: real): (children: (Valuation, Valuation))
    requires |draws| == |a| <= |b|
    ensures |children.0| == |a| && |children.1| == |b|
    ensures forall i :: 0 <= i < |a| ==>
      if draws[i] < crossoverP then children.0[i] == a[i] && children.1[i] == b[i]
      else children.0[i] == b[i] && children.1[i] == a[i]
    ensures forall i :: |a| <= i < |b| ==> children.1[i] == b[i]
    ensures IsBits(a) && IsBits(b) ==> IsBits(children.0) && IsBits(children.1)
  {
    (seq(|a|, i requires 0 <= i < |a| => if draws[i] < crossoverP then a[i] else b[i]),
     seq(|b|, i requires 0 <= i < |b| => if i < |a| && !(draws[i] < crossoverP) then a[i] else b[i]))
  }

  /** Crossover on the genes after the first is crossover on the tails. */
  lemma CrossoverTail(a: Valuation, b: Valuation, draws: seq<real>, crossoverP: real)
    requires |draws| == |a| <= |b| && |a| > 0
    ensures Crossover(a, b, draws, crossoverP).0
         == [Crossover(a, b, draws, crossoverP).0[0]] + Crossover(a[1..], b[1..], draws[1..], crossoverP).0
    ensures Crossover(a, b, draws, crossoverP).1
         == [Crossover(a, b, draws, crossoverP).1[0]] + Crossover(a[1..], b[1..], draws[1..], crossoverP).1
  {
    var c := Crossover(a, b, draws, crossoverP);
    var t := Crossover(a[1..], b[1..], draws[1..], crossoverP);
    assert c.0 == [c.0[0]] + t.0;
    assert c.1 == [c.1[0]] + t.1;
  }

  /** The two children together carry exactly the genes of the two parents. */
  lemma {:induction false} CrossoverConservesGenes(a: Valuation, b: Valuation, draws: seq<real>, crossoverP: real)
    requires |draws| == |a| <= |b|
    ensures multiset(Crossover(a, b, draws, crossoverP).0) + multiset(Crossover(a, b, draws, crossoverP).1)
         == multiset(a) + multiset(b)
    decreases |a|
  {
    var c := Crossover(a, b, draws, crossoverP);
    if |a| == 0 {
      assert c.0 == [];
      assert c.1 == b;
    } else {
      var t := Crossover(a[1..], b[1..], draws[1..], crossoverP);
      CrossoverTail(a, b, draws, crossoverP);
      CrossoverConservesGenes(a[1..], b[1..], draws[1..], crossoverP);
      var head := multiset{c.0[0]} + multiset{c.1[0]};
      assert head == multiset{a[0]} + multiset{b[0]};
      assert multiset(c.0) == multiset{c.0[0]} + multiset(t.0);
      assert multiset(c.1) == multiset{c.1[0]} + multiset(t.1);
      assert a == [a[0]] + a[1..];
      assert b == [b[0]] + b[1..];
      var tails := multiset(a[1..]) + multiset(b[1..]);
      assert multiset(t.0) + multiset(t.1) == tails;
      calc {
        multiset(c.0) + multiset(c.1);
        (multiset{c.0[0]} + multiset(t.0)) + (multiset{c.1[0]} + multiset(t.1));
        head + (multiset(t.0) + multiset(t.1));
        head + tails;
        (multiset{a[0]} + multiset(a[1..])) + (multiset{b[0]} + multiset(b[1..]));
        multiset(a) + multiset(b);
      }
    }
  }

  /** Exchanging the parents exchanges the children. */
  lemma CrossoverSwapsWithParents(a: Valuation, b: Valuation, draws: seq<real>, crossoverP: real)
    requires |draws| == |a| == |b|
    ensures Crossover(b, a, draws, crossoverP) == (Crossover(a, b, draws, crossoverP).1, Crossover(a, b, draws, crossoverP).0)
  {
    var c := Crossover(a, b, draws, crossoverP);
    var d := Crossover(b, a, draws, crossoverP);
    assert d.0 == c.1;
    assert d.1 == c.0;
  }

  /**
   Crossover as ea.py writes it: both "children" are the parents' own
   lists, so the keep branch assigns each gene to itself and the swap branch
   first writes `b[i]` into the first parent and then copies that same value
   back into the second. The first child is the first parent overwritten in
   place; the second child is always the second parent, unchanged.
   */
  function CrossoverAsWritten(a: Valuation, b: Valuation, draws: seq<real>, crossoverP: real): (children: (Valuation, Valuation))
    requires |draws| == |a| <= |b|
    ensures children.1 == b
    ensures children.0 == Crossover(a, b, draws, crossoverP).0
  {
    (seq(|a|, i requires 0 <= i < |a| => if draws[i] < crossoverP then a[i] else b[i]), b)
  }

  /** One gene, one swap draw: the as-written children lose the first parent's gene. */
  lemma CrossoverAsWrittenLosesGenes()
    ensures CrossoverAsWritten([0], [1], [0.9], 0.5) == ([1], [1])
    ensures Crossover([0], [1], [0.9], 0.5) == ([1], [0])
    ensures multiset([1]) + multiset([1]) != multiset([0]) + multiset([1])
  {
    var c := Crossover([0], [1], [0.9], 0.5);
    assert c.0 == [1] && c.1 == [0];
    assert multiset([1]) + multiset([1]) != multiset([0]) + multiset([1]) by {
      assert (multiset([1]) + multiset([1]))[0] == 0;
    }
  }

  /**
   `mutation`: when the gate draw `t` is below the mutation rate, the gene at
   `locus` is flipped (0 becomes 1, anything else becomes 0) and nothing else
   changes; otherwise the chromosome is returned unchanged. One gate guards
   one flip; it is not a per-gene probability.
   */
  function Mutation(c: Valuation, t: real, mutationRate: real, locus: int): (r: Valuation)
    requires t < mutationRate ==> 0 <= locus < |c|
    ensures |r| == |c|
    ensures t >= mutationRate ==> r == c
    ensures t < mutationRate ==> r[locus] != c[locus] && (r[locus] == 0 || r[locus] == 1)
    ensures t < mutationRate ==> forall j :: 0 <= j < |c| && j != locus ==> r[j] == c[j]
    ensures IsBits(c) ==> IsBits(r)
  {
    if t < mutationRate then c[locus := if c[locus] == 0 then 1 else 0] else c
  }

  /** On a 0/1 chromosome, repeating the same mutation undoes it. */
  lemma MutationUndoesItself(c: Valuation, t: real, mutationRate: real, locus: int)
    requires t < mutationRate ==> 0 <= locus < |c|
    requires IsBits(c)
    ensures Mutation(Mutation(c, t, mutationRate, locus), t, mutationRate, locus) == c
  {
    if t < mutationRate {
      var once := Mutation(c, t, mutationRate, locus);
      var twice := Mutation(once, t, mutationRate, locus);
      assert c[locus] == 0 || c[locus] == 1;
      assert twice[locus] == c[locus];
      assert forall j :: 0 <= j < |c| ==> twice[j] == c[j];
    }
  }
}

=== FILE: local_search.dfy ===
/**
 Greedy bit-flip local search of the weighted particle swarm (pso.py:209-228).

 A sweep visits every variable in order, flips it, and keeps the flip when the
 weighted fitness does not drop (plateau moves are kept); otherwise it flips
 the variable back. Sweeps repeat while the last one gained something and the
 flip budget is not yet spent; the budget is checked only between sweeps.
 */
module PsoLocalSearch {
  import opened Clauses
  import opened WeightedFitness

  /** `v` with variable `i + 1` negated as `1 - v[i]`. */
  function Flip(v: Valuation, i: nat): (r: Valuation)
    requires i < |v|
    ensures |r| == |v|
    ensures r[i] == 1 - v[i]
    ensures forall j :: 0 <= j < |v| && j != i ==> r[j] == v[j]
  {
    v[i := 1 - v[i]]
  }

  /** Flipping the same variable twice gives the valuation back: a rejected flip is undone exactly. */
  lemma FlipUndoes(v: Valuation, i: nat)
    requires i < |v|
    ensures Flip(Flip(v, i), i) == v
  {
  }

  /** `after` has the length of `before` and is fitter by exactly `gain`. */
  predicate Gains(cs: seq<WeightedClause>, before: Valuation, after: Valuation, gain: int)
    requires InRange(cs, |before|)
  {
    |after| == |before| && Fitness(cs, after) == Fitness(cs, before) + gain
  }

  /** `after` has the length of `before` and is at least as fit. */
  predicate NoWorse(cs: seq<WeightedClause>, before: Valuation, after: Valuation)
    requires InRange(cs, |before|)
  {
    |after| == |before| && Fitness(cs, after) >= Fitness(cs, before)
  }

  /** Each of the first `m` single flips of `v` strictly lowers the fitness. */
  predicate FlipsLose(cs: seq<WeightedClause>, v: Valuation, m: nat)
    requires InRange(cs, |v|) && m <= |v|
  {
    forall j :: 0 <= j < m ==> Fitness(cs, Flip(v, j)) < Fitness(cs, v)
  }

  /**
   No single flip of `v` keeps the fitness: the positions where a sweep
   accepts nothing and local search stays put.
   */
  predicate StrictLocalMax(cs: seq<WeightedClause>, v: Valuation)
    requires InRange(cs, |v|)
  {
    FlipsLose(cs, v, |v|)
  }

  /**
   The rule of one tentative flip of variable `i + 1`: keep it when the
   fitness does not drop, otherwise undo it.
   */
  function Accept(cs: seq<WeightedClause>, v: Valuation, i: nat): (r: Valuation)
    requires InRange(cs, |v|) && i < |v|
    ensures |r| == |v| && Fitness(cs, r) >= Fitness(cs, v)
    ensures r == v || r == Flip(v, i)
    ensures IsBits(v) ==> IsBits(r)
  {
    var flipped := Flip(v, i);
    if Fitness(cs, flipped) >= Fitness(cs, v) then flipped else v
  }

  /** The rest of a sweep from variable `i + 1` on, one `Accept` per variable in order. */
  function SweepFrom(cs: seq<WeightedClause>, v: Valuation, i: nat): (r: Valuation)
    requires InRange(cs, |v|) && i <= |v|
    ensures |r| == |v| && Fitness(cs, r) >= Fitness(cs, v)
    ensures IsBits(v) ==> IsBits(r)
    decreases |v| - i
  {
    if i == |v| then v else SweepFrom(cs, Accept(cs, v, i), i + 1)
  }

  /**
   The whole search as a value: sweeps repeat while the last one gained
   something and fewer than `maxFlip` flips were made; each sweep costs
   `|v|` flips and its gain becomes the new `improvement`.
   */
  function SearchFrom(cs: seq<WeightedClause>, v: Valuation, flips: nat, improvement: int, maxFlip: int)
    : (r: (Valuation, nat, int))
    requires InRange(cs, |v|) && improvement >= 0
    ensures |r.0| == |v|
    decreases PositiveWeight(cs) - Fitness(cs, v), improvement
  {
    if improvement > 0 && flips < maxFlip then
      var w := SweepFrom(cs, v, 0);
      SearchFrom(cs, w, flips + |v|, Fitness(cs, w) - Fitness(cs, v), maxFlip)
    else (v, flips, improvement)
  }

  /**
   One tentative flip inside a sweep: flip variable `i + 1`, measure the
   gain, and undo the flip when the gain is negative. `accepted` is the gain
   when the flip is kept and 0 otherwise.
   */
  method TryFlip(cs: seq<WeightedClause>, v: Valuation, i: nat) returns (w: Valuation, accepted: int)
    requires InRange(cs, |v|) && i < |v|
    ensures w == Accept(cs, v, i)
    ensures accepted >= 0 && Fitness(cs, w) == Fitness(cs, v) + accepted
  {
    var before := Fitness(cs, v);
    w := Flip(v, i);
    var after := Fitness(cs, w);
    var gain := after - before;
    if gain >= 0 {
      accepted := gain;
    } else {
      FlipUndoes(v, i);
      w := Flip(w, i);
      accepted := 0;
    }
  }

  /**
   One pass over all variables. The returned `improvement` is the sum of the
   non-negative gains of the accepted flips, so it is exactly the rise in
   fitness over the pass.
   */
  method Sweep(cs: seq<WeightedClause>, pos: Valuation) returns (next: Valuation, improvement: int)
    requires InRange(cs, |pos|)
    ensures |next| == |pos|
    ensures improvement >= 0
    ensures Gains(cs, pos, next, improvement)
    ensures IsBits(pos) ==> IsBits(next)
    ensures next == pos <==> StrictLocalMax(cs, pos)
    ensures next == SweepFrom(cs, pos, 0)
  {
    next := pos;
    improvement := 0;
    var i := 0;
    while i < |pos|
      invariant 0 <= i <= |pos|
      invariant |next| == |pos|
      invariant improvement >= 0
      invariant Fitness(cs, next) == Fitness(cs, pos) + improvement
      invariant IsBits(pos) ==> IsBits(next)
      invariant next[i..] == pos[i..]
      invariant next == pos <==> FlipsLose(cs, pos, i)
      invariant SweepFrom(cs, next, i) == SweepFrom(cs, pos, 0)
    {
      var prev := next;
      var gain;
      next, gain := TryFlip(cs, prev, i);
      improvement := improvement + gain;
      i := i + 1;
    }
  }

  /**
   The whole search. `improvement` is the gain of the last sweep (1 when no
   sweep ran, as pso.py initialises it) and `flips` counts every tentative
   flip, accepted or not.
   */
  method LocalSearch(cs: seq<WeightedClause>, pos: Valuation, maxFlip: int)
    returns (next: Valuation, flips: nat, improvement: int)
    requires InRange(cs, |pos|)
    ensures |next| == |pos|
    ensures NoWorse(cs, pos, next)
    ensures IsBits(pos) ==> IsBits(next)
    ensures improvement == 0 || flips >= maxFlip
    ensures maxFlip <= 0 ==> flips == 0 && next == pos
    ensures maxFlip > 0 ==> flips < maxFlip + |pos|
    ensures maxFlip > 0 ==> (next == pos <==> StrictLocalMax(cs, pos))
    ensures (next, flips, improvement) == SearchFrom(cs, pos, 0, 1, maxFlip)
  {
    next := pos;
    improvement := 1;
    flips := 0;
    while improvement > 0 && flips < maxFlip
      invariant |next| == |pos|
      invariant improvement >= 0
      invariant Fitness(cs, next) >= Fitness(cs, pos)
      invariant IsBits(pos) ==> IsBits(next)
      invariant flips == 0 ==> next == pos && (improvement == 1 || |pos| == 0)
      invariant maxFlip <= 0 ==> flips == 0
      invariant flips == 0 || flips < maxFlip + |pos|
      invariant flips > 0 ==> (next == pos <==> StrictLocalMax(cs, pos))
      invariant flips > 0 && improvement > 0 ==> Fitness(cs, next) > Fitness(cs, pos)
      invariant SearchFrom(cs, next, flips, improvement, maxFlip) == SearchFrom(cs, pos, 0, 1, maxFlip)
      decreases PositiveWeight(cs) - Fitness(cs, next), improvement
    {
      var gain;
      var prev := next;
      next, gain := Sweep(cs, prev);
      flips := flips + |pos|;
      improvement := gain;
    }
  }
}

=== FILE: pso.dfy ===
/**
 The weighted particle swarm with local search (pso.py, `PSO` and
 `run_WPSOSAT`).

 Velocities never reach a position in pso.py (the velocity-driven
 position update is commented out and local search moves the particles
 instead), so once the initial positions are given the whole run is
 deterministic; the initial positions are the only random input here.
 Particles, the global best and the clause weights are values threaded
 through each step instead of shared objects.
 */
module Pso {
  import opened Clauses
  import opened WeightedFitness
  import opened PsoLocalSearch

  /** A particle without its velocity. `fitness` is the weighted fitness recorded by the last evaluation. */
  datatype Particle = Particle(position: Valuation, best: Valuation, fitness: int)

  datatype GlobalBest = GlobalBest(position: Valuation, fitness: int)

  datatype Swarm = Swarm(clauses: seq<WeightedClause>, particles: seq<Particle>, globalBest: GlobalBest)

  predicate ParticleValid(p: Particle, n: nat) {
    |p.position| == n && |p.best| == n && IsBits(p.position) && IsBits(p.best)
  }

  predicate GlobalBestValid(cs: seq<WeightedClause>, gb: GlobalBest, n: nat) {
    && InRange(cs, n)
    && |gb.position| == n
    && IsBits(gb.position)
    && gb.fitness == Fitness(cs, gb.position)
  }

  /**
   What every swarm over `n` variables keeps between iterations: literals in
   range, weights of at least 1, 0/1 positions of length `n`, and a recorded
   global-best fitness that is the actual fitness of the global best.
   */
  predicate Valid(s: Swarm, n: nat) {
    && InRange(s.clauses, n)
    && WeightsAtLeastOne(s.clauses)
    && (forall i :: 0 <= i < |s.particles| ==> ParticleValid(s.particles[i], n))
    && GlobalBestValid(s.clauses, s.globalBest, n)
  }

  /**
   The swarm as the constructor builds it: unit weights, personal best equal
   to the initial position, and the first particle's position as global best.
   In pso.py the initial particle fitness is minus infinity; it is overwritten
   before it is ever read, so 0 stands in for it.
   */
  function Init(formula: seq<Clause>, n: nat, positions: seq<Valuation>): (s: Swarm)
    requires FormulaInRange(formula, n)
    requires |positions| >= 1
    requires forall i :: 0 <= i < |positions| ==> |positions[i]| == n && IsBits(positions[i])
    ensures Valid(s, n)
    ensures Literals(s.clauses) == formula
    ensures forall i :: 0 <= i < |s.clauses| ==> s.clauses[i].weight == 1
    ensures |s.particles| == |positions|
    ensures forall i :: 0 <= i < |positions| ==>
      s.particles[i].position == positions[i] && s.particles[i].best == positions[i]
    ensures s.globalBest.position == positions[0]
    ensures s.globalBest.fitness == CountSatisfied(positions[0], formula)
  {
    var cs := UnitWeights(formula);
    assert InRange(cs, n);
    UnitWeightFitnessIsCount(formula, positions[0]);
    Swarm(cs,
          seq(|positions|, i requires 0 <= i < |positions| => Particle(positions[i], positions[i], 0)),
          GlobalBest(positions[0], Fitness(cs, positions[0])))
  }

  /**
   Evaluates every particle and scans for a strictly better global best. A
   particle replaces the global best only when it beats the best so far, so
   among particles tied at a new maximum the first one wins.
   */
  method CalcFitnessAndGlobalBest(cs: seq<WeightedClause>, ps: seq<Particle>, gb: GlobalBest)
    returns (evaluated: seq<Particle>, best: GlobalBest)
    requires forall i :: 0 <= i < |ps| ==> InRange(cs, |ps[i].position|)
    ensures |evaluated| == |ps|
    ensures forall i :: 0 <= i < |ps| ==> evaluated[i] == ps[i].(fitness := Fitness(cs, ps[i].position))
    ensures best.fitness >= gb.fitness
    ensures forall i :: 0 <= i < |ps| ==> evaluated[i].fitness <= best.fitness
    ensures (forall i :: 0 <= i < |ps| ==> evaluated[i].fitness <= gb.fitness) ==> best == gb
    ensures best != gb ==>
      exists k :: 0 <= k < |ps|
        && best == GlobalBest(ps[k].position, evaluated[k].fitness)
        && best.fitness > gb.fitness
        && forall j :: 0 <= j < k ==> evaluated[j].fitness < best.fitness
  {
    evaluated := [];
    best := gb;
    ghost var winner := 0;
    var i := 0;
    while i < |ps|
      invariant 0 <= i <= |ps|
      invariant |evaluated| == i
      invariant forall j :: 0 <= j < i ==> evaluated[j] == ps[j].(fitness := Fitness(cs, ps[j].position))
      invariant best.fitness >= gb.fitness
      invariant forall j :: 0 <= j < i ==> evaluated[j].fitness <= best.fitness
      invariant (forall j :: 0 <= j < i ==> evaluated[j].fitness <= gb.fitness) ==> best == gb
      invariant best != gb ==>
        && 0 <= winner < i
        && best == GlobalBest(ps[winner].position, evaluated[winner].fitness)
        && best.fitness > gb.fitness
        && forall j :: 0 <= j < winner ==> evaluated[j].fitness < best.fitness
    {
      var f := Fitness(cs, ps[i].position);
      evaluated := evaluated + [ps[i].(fitness := f)];
      if f > best.fitness {
        best := GlobalBest(ps[i].position, f);
        winner := i;
      }
      i := i + 1;
    }
  }

  /**
   Replaces the personal best by the current position when the recorded
   fitness strictly beats the re-evaluated fitness of the old personal best.
   The recorded fitness is left as it is.
   */
  function UpdatePersonalBest(cs: seq<WeightedClause>, p: Particle): (r: Particle)
    requires InRange(cs, |p.best|)
    ensures r.position == p.position && r.fitness == p.fitness
    ensures p.fitness > Fitness(cs, p.best) ==> r.best == p.position
    ensures p.fitness <= Fitness(cs, p.best) ==> r.best == p.best
    ensures InRange(cs, |p.position|) && p.fitness <= Fitness(cs, p.position) ==>
      Fitness(cs, r.best) >= Fitness(cs, p.best) && Fitness(cs, r.best) >= p.fitness
  {
    if p.fitness > Fitness(cs, p.best) then p.(best := p.position) else p
  }

  /**
   The same step as pso.py writes it: on replacement it also overwrites
   the particle's recorded fitness with the old personal best's fitness.
   */
  function UpdatePersonalBestAsWritten(cs: seq<WeightedClause>, p: Particle): (r: Particle)
    requires InRange(cs, |p.best|)
    ensures r.position == p.position
    ensures p.fitness > Fitness(cs, p.best) ==> r.best == p.position && r.fitness == Fitness(cs, p.best)
    ensures p.fitness <= Fitness(cs, p.best) ==> r == p
  {
    var bestFitness := Fitness(cs, p.best);
    if p.fitness > bestFitness then p.(fitness := bestFitness, best := p.position) else p
  }

  /**
   Whenever the as-written update fires, the particle ends up recording a
   fitness strictly below the fitness of its own position, while the
   corrected update keeps the recorded value.
   */
  lemma AsWrittenPersonalBestUnderstatesFitness(cs: seq<WeightedClause>, p: Particle)
    requires InRange(cs, |p.best|) && InRange(cs, |p.position|)
    requires p.fitness <= Fitness(cs, p.position)
    requires p.fitness > Fitness(cs, p.best)
    ensures UpdatePersonalBestAsWritten(cs, p).fitness < Fitness(cs, UpdatePersonalBestAsWritten(cs, p).position)
    ensures UpdatePersonalBest(cs, p).fitness == p.fitness
  {
  }

  /** A concrete instance: clause `[1]`, position `[1]`, personal best `[0]`. */
  lemma AsWrittenPersonalBestExample()
    ensures var cs := UnitWeights([[1]]);
      && InRange(cs, 1)
      && UpdatePersonalBestAsWritten(cs, Particle([1], [0], 1)) == Particle([1], [1], 0)
      && UpdatePersonalBest(cs, Particle([1], [0], 1)) == Particle([1], [1], 1)
  {
    var cs := UnitWeights([[1]]);
    assert cs == [WeightedClause([1], 1)];
    assert InRange(cs, 1);
    assert !IsClauseSatisfied([0], [1]) by { assert LiteralValue([0], 1) == 0; }
    assert Fitness(cs, [0]) == 0;
  }

  /**
   In pso.py the personal best is the very list that holds the position,
   so when the update is reached after local search (which never lowers the
   fitness) it never fires.
   */
  lemma AliasedPersonalBestNeverReplaced(cs: seq<WeightedClause>, p: Particle)
    requires InRange(cs, |p.position|)
    requires p.best == p.position
    requires p.fitness <= Fitness(cs, p.position)
    ensures UpdatePersonalBestAsWritten(cs, p) == p
  {
  }

  /**
   Second global-best pass for one particle: its personal best replaces the
   global best only on strict improvement, so the global-best fitness never
   decreases.
   */
  function UpdateGlobalBest(cs: seq<WeightedClause>, p: Particle, gb: GlobalBest): (r: GlobalBest)
    requires InRange(cs, |p.best|)
    ensures r.fitness >= gb.fitness && r.fitness >= Fitness(cs, p.best)
    ensures r.fitness == gb.fitness || r.fitness == Fitness(cs, p.best)
    ensures r.fitness > gb.fitness ==> r.position == p.best
    ensures r.fitness == gb.fitness ==> r == gb
    ensures GlobalBestValid(cs, gb, |p.best|) && IsBits(p.best) ==> GlobalBestValid(cs, r, |p.best|)
  {
    var current := Fitness(cs, p.best);
    if current > gb.fitness then GlobalBest(p.best, current) else gb
  }

  /**
   After its turn in a round, a particle records the fitness of its position,
   its personal best is at least as fit as that position, and the global best
   is at least as fit as its personal best.
   */
  predicate Ranked(cs: seq<WeightedClause>, p: Particle, gb: GlobalBest, n: nat)
    requires InRange(cs, n) && ParticleValid(p, n)
  {
    p.fitness == Fitness(cs, p.position) <= Fitness(cs, p.best) <= gb.fitness
  }

  /** `Ranked` for every particle of `ps` against the same global best. */
  predicate AllRanked(cs: seq<WeightedClause>, ps: seq<Particle>, gb: GlobalBest, n: nat)
    requires InRange(cs, n)
    requires forall i :: 0 <= i < |ps| ==> ParticleValid(ps[i], n)
  {
    forall i :: 0 <= i < |ps| ==> Ranked(cs, ps[i], gb, n)
  }

  /**
   One particle's turn in a round: local search from its position, the
   fitness of the new position recorded, then the personal-best and
   global-best updates.
   */
  method Turn(cs: seq<WeightedClause>, p: Particle, gb: GlobalBest, n: nat, maxFlip: int)
    returns (q: Particle, gb': GlobalBest)
    requires ParticleValid(p, n) && GlobalBestValid(cs, gb, n)
    ensures ParticleValid(q, n) && GlobalBestValid(cs, gb', n)
    ensures Fitness(cs, q.position) >= Fitness(cs, p.position)
    ensures Ranked(cs, q, gb', n)
    ensures gb'.fitness >= gb.fitness
    ensures gb' == gb || gb'.position == q.best
    ensures q.position == SearchFrom(cs, p.position, 0, 1, maxFlip).0
  {
    var position, _, _ := LocalSearch(cs, p.position, maxFlip);
    q := p.(position := position, fitness := Fitness(cs, position));
    q := UpdatePersonalBest(cs, q);
    gb' := UpdateGlobalBest(cs, q, gb);
  }

  /**
   On the clause `[1]` with one variable, a turn with a flip budget of 1
   moves the position `[0]` to `[1]`, which satisfies the clause: the turn
   does not leave the particle where it was.
   */
  lemma TurnSatisfiesUnitClause()
    ensures SearchFrom([WeightedClause([1], 1)], [0], 0, 1, 1).0 == [1]
    ensures SatisfiesAll([1], [WeightedClause([1], 1)])
  {
    var cs := [WeightedClause([1], 1)];
    assert IsClauseSatisfied([1], [1]);
    assert Flip([0], 0) == [1];
    assert Fitness(cs, [1]) == 1;
    assert SweepFrom(cs, [0], 0) == [1];
    assert Flip([1], 0) == [0];
    assert SweepFrom(cs, [1], 0) == [1];
  }

  /**
   Where a global best can come from during a round that started from `start`:
   it is the round's starting global best, the starting position of one of its
   particles, or the personal best of one of the first `upto` particles of `ps`.
   */
  predicate FromSwarm(gb: GlobalBest, start: Swarm, ps: seq<Particle>, upto: int) {
    || gb == start.globalBest
    || (exists k :: 0 <= k < |start.particles| && gb.position == start.particles[k].position)
    || (exists j :: 0 <= j < upto && j < |ps| && gb.position == ps[j].best)
  }

  /** A turn that replaces the global best by particle `i`'s new personal best keeps `FromSwarm`. */
  lemma FromSwarmStep(gb: GlobalBest, gb': GlobalBest, start: Swarm, ps: seq<Particle>, i: nat, p: Particle)
    requires i < |ps|
    requires FromSwarm(gb, start, ps, i)
    requires gb' == gb || gb'.position == p.best
    ensures FromSwarm(gb', start, ps[i := p], i + 1)
  {
    var ps' := ps[i := p];
    if gb' == gb {
      if exists j :: 0 <= j < i && j < |ps| && gb.position == ps[j].best {
        var j :| 0 <= j < i && j < |ps| && gb.position == ps[j].best;
        assert ps'[j] == ps[j];
      }
    } else {
      assert ps'[i] == p;
    }
  }

  /**
   What one round makes of a swarm `s` over `n` variables: the swarm
   invariants hold on both sides; the global-best fitness does not drop and
   the new global best comes from the swarm; no particle position's fitness
   drops under the weights the round started with; every particle records
   the fitness of its position, which its personal best and the global best
   reach; and the clauses are reweighed against the new global best.
   */
  predicate Round(s: Swarm, next: Swarm, n: nat, maxFlip: int) {
    && Valid(s, n)
    && Valid(next, n)
    && |next.particles| == |s.particles|
    && Literals(next.clauses) == Literals(s.clauses)
    && next.clauses == UpdateClausesWeight(s.clauses, next.globalBest.position)
    && next.globalBest.fitness >= s.globalBest.fitness
    && FromSwarm(next.globalBest, s, next.particles, |next.particles|)
    && (forall i :: 0 <= i < |s.particles| ==>
          Fitness(s.clauses, next.particles[i].position) >= Fitness(s.clauses, s.particles[i].position))
    && AllRanked(s.clauses, next.particles, next.globalBest, n)
    && (forall i :: 0 <= i < |s.particles| ==>
          next.particles[i].position == SearchFrom(s.clauses, s.particles[i].position, 0, 1, maxFlip).0)
  }

  /**
   What a round has done once the first `i` particles have had their turn:
   those particles hold their local-search results and are ranked against
   the current global best, the rest still hold their starting positions,
   and no position has lost fitness under the round's weights.
   */
  predicate TurnsTaken(s: Swarm, ps: seq<Particle>, gb: GlobalBest, i: int, n: nat, maxFlip: int)
    requires Valid(s, n)
  {
    && 0 <= i <= |ps| == |s.particles|
    && (forall j :: 0 <= j < |ps| ==> ParticleValid(ps[j], n))
    && GlobalBestValid(s.clauses, gb, n)
    && gb.fitness >= s.globalBest.fitness
    && FromSwarm(gb, s, ps, i)
    && (forall j :: 0 <= j < |ps| ==>
          Fitness(s.clauses, ps[j].position) >= Fitness(s.clauses, s.particles[j].position))
    && (forall j :: 0 <= j < i ==> Ranked(s.clauses, ps[j], gb, n))
    && (forall j :: 0 <= j < i ==>
          ps[j].position == SearchFrom(s.clauses, s.particles[j].position, 0, 1, maxFlip).0)
    && (forall j :: i <= j < |ps| ==> ps[j].position == s.particles[j].position)
  }

  /** The turn of particle `i` extends `TurnsTaken` by one particle. */
  lemma TurnTaken(s: Swarm, ps: seq<Particle>, gb: GlobalBest, i: nat, n: nat, maxFlip: int, p: Particle, gb': GlobalBest)
    requires Valid(s, n) && TurnsTaken(s, ps, gb, i, n, maxFlip) && i < |ps|
    requires ParticleValid(p, n) && GlobalBestValid(s.clauses, gb', n)
    requires Fitness(s.clauses, p.position) >= Fitness(s.clauses, ps[i].position)
    requires Ranked(s.clauses, p, gb', n)
    requires gb'.fitness >= gb.fitness
    requires gb' == gb || gb'.position == p.best
    requires p.position == SearchFrom(s.clauses, ps[i].position, 0, 1, maxFlip).0
    ensures TurnsTaken(s, ps[i := p], gb', i + 1, n, maxFlip)
  {
    FromSwarmStep(gb, gb', s, ps, i, p);
    assert forall j :: 0 <= j < i ==> Ranked(s.clauses, ps[j], gb', n);
  }

  /** Reweighing the clauses against the global best at the end of the loop completes a `Round`. */
  lemma RoundCloses(s: Swarm, next: Swarm, n: nat, maxFlip: int)
    requires Valid(s, n)
    requires GlobalBestValid(s.clauses, next.globalBest, n)
    requires |next.particles| == |s.particles|
    requires forall j :: 0 <= j < |s.particles| ==>
      && ParticleValid(next.particles[j], n)
      && Fitness(s.clauses, next.particles[j].position) >= Fitness(s.clauses, s.particles[j].position)
    requires forall j :: 0 <= j < |next.particles| ==> Ranked(s.clauses, next.particles[j], next.globalBest, n)
    requires next.globalBest.fitness >= s.globalBest.fitness
    requires FromSwarm(next.globalBest, s, next.particles, |next.particles|)
    requires next.clauses == UpdateClausesWeight(s.clauses, next.globalBest.position)
    requires forall j :: 0 <= j < |s.particles| ==>
      next.particles[j].position == SearchFrom(s.clauses, s.particles[j].position, 0, 1, maxFlip).0
    ensures Round(s, next, n, maxFlip)
  {
    ReweighingKeepsGlobalBestFitness(s.clauses, next.globalBest.position, next.globalBest.position);
  }

  /**
   Local search, personal-best update and global-best update for every
   particle in order, then the clause-weight update against the final global
   best. In pso.py the personal best is the position list itself, so the
   global-best update reads the position left by local search; the model
   keeps a separate personal best, re-records the particle's fitness after
   local search, and so compares the personal best against the particle's
   current fitness.
   */
  method Iterate(s: Swarm, n: nat, maxFlip: int) returns (next: Swarm)
    requires Valid(s, n)
    ensures Round(s, next, n, maxFlip)
  {
    var cs := s.clauses;
    var ps, gb := CalcFitnessAndGlobalBest(cs, s.particles, s.globalBest);
    var i := 0;
    while i < |ps|
      invariant TurnsTaken(s, ps, gb, i, n, maxFlip)
    {
      var p, gb' := Turn(cs, ps[i], gb, n, maxFlip);
      TurnTaken(s, ps, gb, i, n, maxFlip, p, gb');
      gb := gb';
      ps := ps[i := p];
      i := i + 1;
    }
    next := Swarm(UpdateClausesWeight(cs, gb.position), ps, gb);
    RoundCloses(s, next, n, maxFlip);
  }

  /**
   A run's rounds: each swarm is one `Round` away from the one before it, and
   every swarm strictly between the first and the last has a global best that
   leaves some clause unsatisfied, which is why another round followed it.
   */
  predicate Trajectory(rounds: seq<Swarm>, n: nat, maxFlip: int) {
    forall g :: 0 <= g < |rounds| - 1 ==>
      && Round(rounds[g], rounds[g + 1], n, maxFlip)
      && (g >= 1 ==> !SatisfiesAll(rounds[g].globalBest.position, rounds[g].clauses))
  }

  /** One more round after a swarm whose global best does not yet satisfy every clause extends a trajectory. */
  lemma TrajectoryExtends(rounds: seq<Swarm>, next: Swarm, n: nat, maxFlip: int)
    requires |rounds| >= 1 && Trajectory(rounds, n, maxFlip)
    requires Round(rounds[|rounds| - 1], next, n, maxFlip)
    requires |rounds| >= 2 ==> !SatisfiesAll(rounds[|rounds| - 1].globalBest.position, rounds[|rounds| - 1].clauses)
    ensures Trajectory(rounds + [next], n, maxFlip)
  {
    var r := rounds + [next];
    forall g | 0 <= g < |r| - 1
      ensures Round(r[g], r[g + 1], n, maxFlip)
      ensures g >= 1 ==> !SatisfiesAll(r[g].globalBest.position, r[g].clauses)
    {
      assert r[g] == rounds[g];
      if g < |rounds| - 1 {
        assert r[g + 1] == rounds[g + 1];
      }
    }
  }

  /**
   `run_WPSOSAT`: iterate until the global best satisfies every clause or
   `maxIteration` rounds have run. The satisfied count starts at 0, so with
   no clauses (or `maxIteration <= 0`) no round runs at all.
   */
  method Run(formula: seq<Clause>, n: nat, positions: seq<Valuation>, maxIteration: int, maxFlip: int)
    returns (final: Swarm, satisfied: nat, iterations: nat, ghost rounds: seq<Swarm>)
    requires FormulaInRange(formula, n)
    requires |positions| >= 1
    requires forall i :: 0 <= i < |positions| ==> |positions[i]| == n && IsBits(positions[i])
    ensures Valid(final, n)
    ensures Literals(final.clauses) == formula
    ensures iterations == 0 || iterations <= maxIteration
    ensures |formula| == 0 || maxIteration <= 0 ==> iterations == 0
    ensures satisfied == |formula| || iterations >= maxIteration
    ensures iterations > 0 ==> satisfied == CountSatisfied(final.globalBest.position, formula)
    ensures iterations == 0 ==> satisfied == 0 && final == Init(formula, n, positions)
    ensures satisfied == |formula| ==> AllSatisfied(final.globalBest.position, formula)
    ensures final.globalBest.fitness >= CountSatisfied(positions[0], formula)
    ensures |rounds| == iterations + 1 && rounds[0] == Init(formula, n, positions) && rounds[iterations] == final
    ensures Trajectory(rounds, n, maxFlip)
  {
    final := Init(formula, n, positions);
    satisfied := 0;
    iterations := 0;
    rounds := [final];
    while !(satisfied == |formula| || iterations >= maxIteration)
      invariant Valid(final, n)
      invariant Literals(final.clauses) == formula
      invariant iterations == 0 || iterations <= maxIteration
      invariant |formula| == 0 || maxIteration <= 0 ==> iterations == 0
      invariant iterations > 0 ==> satisfied == CountSatisfied(final.globalBest.position, formula)
      invariant iterations == 0 ==> satisfied == 0 && final == Init(formula, n, positions)
      invariant final.globalBest.fitness >= CountSatisfied(positions[0], formula)
      invariant |rounds| == iterations + 1 && rounds[0] == Init(formula, n, positions) && rounds[iterations] == final
      invariant Trajectory(rounds, n, maxFlip)
      decreases maxIteration - iterations
    {
      var next := Iterate(final, n, maxFlip);
      TrajectoryExtends(rounds, next, n, maxFlip);
      iterations := iterations + 1;
      final := next;
      satisfied := NumSatisfiedClauses(final.clauses, final.globalBest.position);
      rounds := rounds + [final];
    }
  }
}

=== FILE: weighted.dfy ===
/**
 The weighted fitness of the particle swarm (pso.py): every clause carries an
 integer weight, the fitness of a valuation is the total weight of the clauses
 it satisfies, and after each iteration every clause the global best leaves
 unsatisfied gains one unit of weight. Weights start at 1 and only grow by
 `1 - satisfied`, so every fitness is an integer.
 */
module WeightedFitness {
  import opened Clauses

  datatype WeightedClause = WeightedClause(literals: Clause, weight: int)

  predicate InRange(cs: seq<WeightedClause>, n: int) {
    forall i :: 0 <= i < |cs| ==> ClauseInRange(cs[i].literals, n)
  }

  predicate WeightsAtLeastOne(cs: seq<WeightedClause>) {
    forall i :: 0 <= i < |cs| ==> cs[i].weight >= 1
  }

  /** The literal lists, weights dropped. */
  function Literals(cs: seq<WeightedClause>): (r: seq<Clause>)
    ensures |r| == |cs|
    ensures forall i :: 0 <= i < |cs| ==> r[i] == cs[i].literals
  {
    seq(|cs|, i requires 0 <= i < |cs| => cs[i].literals)
  }

  /** The clauses as read from the input file, every weight 1. */
  function UnitWeights(formula: seq<Clause>): (r: seq<WeightedClause>)
    ensures |r| == |formula|
    ensures Literals(r) == formula
    ensures WeightsAtLeastOne(r)
    ensures forall i :: 0 <= i < |r| ==> r[i].weight == 1
  {
    seq(|formula|, i requires 0 <= i < |formula| => WeightedClause(formula[i], 1))
  }

  function TotalWeight(cs: seq<WeightedClause>): int {
    if |cs| == 0 then 0 else cs[0].weight + TotalWeight(cs[1..])
  }

  /** Sum of the positive weights: an upper bound on the fitness whatever the weights. */
  function PositiveWeight(cs: seq<WeightedClause>): nat {
    if |cs| == 0 then 0
    else (if cs[0].weight > 0 then cs[0].weight else 0) + PositiveWeight(cs[1..])
  }

  /** Sum of the weights of the clauses `v` satisfies. */
  function Fitness(cs: seq<WeightedClause>, v: Valuation): (r: int)
    requires InRange(cs, |v|)
    ensures r <= PositiveWeight(cs)
  {
    if |cs| == 0 then 0
    else
      var rest := Fitness(cs[1..], v);
      (if IsClauseSatisfied(v, cs[0].literals) then cs[0].weight else 0) + rest
  }

  /** `v` satisfies every weighted clause of `cs`. */
  predicate SatisfiesAll(v: Valuation, cs: seq<WeightedClause>)
    requires InRange(cs, |v|)
  {
    forall i :: 0 <= i < |cs| ==> IsClauseSatisfied(v, cs[i].literals)
  }

  /** Number of clauses `v` satisfies, weights ignored. */
  function NumSatisfiedClauses(cs: seq<WeightedClause>, v: Valuation): (r: nat)
    requires InRange(cs, |v|)
    ensures r <= |cs|
    ensures r == |cs| <==> SatisfiesAll(v, cs)
  {
    CountSatisfied(v, Literals(cs))
  }

  /** With weights of at least 1 the fitness lies in `[0, TotalWeight]` and reaches the top iff every clause is satisfied. */
  lemma {:induction false} FitnessBounds(cs: seq<WeightedClause>, v: Valuation)
    requires InRange(cs, |v|)
    requires WeightsAtLeastOne(cs)
    ensures 0 <= Fitness(cs, v) <= TotalWeight(cs)
    ensures Fitness(cs, v) == TotalWeight(cs) <==> SatisfiesAll(v, cs)
  {
    if |cs| > 0 {
      var rest := cs[1..];
      assert InRange(rest, |v|) && WeightsAtLeastOne(rest);
      FitnessBounds(rest, v);
      assert forall i :: 1 <= i < |cs| ==> cs[i] == rest[i - 1];
    }
  }

  /** Under unit weights the weighted fitness is the plain count of satisfied clauses. */
  lemma {:induction false} UnitWeightFitnessIsCount(formula: seq<Clause>, v: Valuation)
    requires FormulaInRange(formula, |v|)
    ensures InRange(UnitWeights(formula), |v|)
    ensures Fitness(UnitWeights(formula), v) == CountSatisfied(v, formula)
  {
    var cs := UnitWeights(formula);
    if |formula| > 0 {
      assert cs[1..] == UnitWeights(formula[1..]);
      UnitWeightFitnessIsCount(formula[1..], v);
    }
  }

  /** One weight step: `w + 1 - satisfied(globalBest, clause)` (pso.py:188-189). */
  function Reweigh(c: WeightedClause, globalBest: Valuation): WeightedClause
    requires ClauseInRange(c.literals, |globalBest|)
  {
    c.(weight := c.weight + 1 - if IsClauseSatisfied(globalBest, c.literals) then 1 else 0)
  }

  /** `r` is `cs` with every clause put through `Reweigh`, position by position. */
  predicate ReweighedFrom(r: seq<WeightedClause>, cs: seq<WeightedClause>, globalBest: Valuation)
    requires InRange(cs, |globalBest|)
  {
    |r| == |cs| && forall i :: 0 <= i < |cs| ==> r[i] == Reweigh(cs[i], globalBest)
  }

  /** Sequences of clauses with the same literal lists, position by position, have the same `Literals`. */
  lemma LiteralsAgree(a: seq<WeightedClause>, b: seq<WeightedClause>)
    requires |a| == |b|
    requires forall i :: 0 <= i < |a| ==> a[i].literals == b[i].literals
    ensures Literals(a) == Literals(b)
  {
  }

  /** What reweighing clause by clause does to the weights and the literal lists. */
  lemma ReweighFacts(cs: seq<WeightedClause>, globalBest: Valuation, r: seq<WeightedClause>)
    requires InRange(cs, |globalBest|)
    requires ReweighedFrom(r, cs, globalBest)
    ensures Literals(r) == Literals(cs)
    ensures forall i :: 0 <= i < |cs| ==>
      (r[i].weight == cs[i].weight + 1 <==> !IsClauseSatisfied(globalBest, cs[i].literals))
    ensures forall i :: 0 <= i < |cs| ==>
      (r[i].weight == cs[i].weight <==> IsClauseSatisfied(globalBest, cs[i].literals))
    ensures WeightsAtLeastOne(cs) ==> WeightsAtLeastOne(r)
  {
    LiteralsAgree(r, cs);
  }

  /** Every clause the global best leaves unsatisfied gains exactly one unit of weight; nothing else changes. */
  function UpdateClausesWeight(cs: seq<WeightedClause>, globalBest: Valuation): (r: seq<WeightedClause>)
    requires InRange(cs, |globalBest|)
    ensures |r| == |cs|
    ensures ReweighedFrom(r, cs, globalBest)
    ensures Literals(r) == Literals(cs)
    ensures forall i :: 0 <= i < |cs| ==>
      (r[i].weight == cs[i].weight + 1 <==> !IsClauseSatisfied(globalBest, cs[i].literals))
    ensures forall i :: 0 <= i < |cs| ==>
      (r[i].weight == cs[i].weight <==> IsClauseSatisfied(globalBest, cs[i].literals))
    ensures WeightsAtLeastOne(cs) ==> WeightsAtLeastOne(r)
  {
    if |cs| == 0 then []
    else
      var rest := UpdateClausesWeight(cs[1..], globalBest);
      var r := [Reweigh(cs[0], globalBest)] + rest;
      assert forall i :: 1 <= i < |cs| ==> r[i] == rest[i - 1] && cs[i] == cs[1..][i - 1];
      ReweighFacts(cs, globalBest, r);
      r
  }

  /** The clauses of `cs` that `globalBest` leaves unsatisfied, in order. */
  function UnsatisfiedBy(cs: seq<WeightedClause>, globalBest: Valuation): seq<Clause>
    requires InRange(cs, |globalBest|)
  {
    if |cs| == 0 then []
    else if IsClauseSatisfied(globalBest, cs[0].literals) then UnsatisfiedBy(cs[1..], globalBest)
    else [cs[0].literals] + UnsatisfiedBy(cs[1..], globalBest)
  }

  /**
   The weight update raises the fitness of any valuation by the number of
   clauses it satisfies among those the global best does not satisfy.
   */
  lemma {:induction false} ReweighedFitness(cs: seq<WeightedClause>, globalBest: Valuation, v: Valuation)
    requires InRange(cs, |globalBest|)
    requires |v| == |globalBest|
    ensures FormulaInRange(UnsatisfiedBy(cs, globalBest), |v|)
    ensures Fitness(UpdateClausesWeight(cs, globalBest), v)
         == Fitness(cs, v) + CountSatisfied(v, UnsatisfiedBy(cs, globalBest))
  {
    if |cs| > 0 {
      var rest := cs[1..];
      assert InRange(rest, |globalBest|);
      ReweighedFitness(rest, globalBest, v);
      var r := UpdateClausesWeight(cs, globalBest);
      var rr := UpdateClausesWeight(rest, globalBest);
      var h := Reweigh(cs[0], globalBest);
      assert r[0] == h && r[1..] == rr;
      var sv := IsClauseSatisfied(v, cs[0].literals);
      assert Fitness(r, v) == (if sv then h.weight else 0) + Fitness(rr, v);
      assert Fitness(cs, v) == (if sv then cs[0].weight else 0) + Fitness(rest, v);
      var u := UnsatisfiedBy(cs, globalBest);
      var ur := UnsatisfiedBy(rest, globalBest);
      if IsClauseSatisfied(globalBest, cs[0].literals) {
        assert u == ur && h.weight == cs[0].weight;
      } else {
        assert u == [cs[0].literals] + ur && h.weight == cs[0].weight + 1;
        assert u[0] == cs[0].literals && u[1..] == ur;
        assert FormulaInRange(u, |v|);
        assert CountSatisfied(v, u) == (if sv then 1 else 0) + CountSatisfied(v, ur);
      }
    }
  }

  /** No clause in `UnsatisfiedBy(cs, globalBest)` is satisfied by `globalBest` itself. */
  lemma {:induction false} GlobalBestMissesItsUnsatisfied(cs: seq<WeightedClause>, globalBest: Valuation)
    requires InRange(cs, |globalBest|)
    ensures FormulaInRange(UnsatisfiedBy(cs, globalBest), |globalBest|)
    ensures CountSatisfied(globalBest, UnsatisfiedBy(cs, globalBest)) == 0
  {
    if |cs| > 0 {
      GlobalBestMissesItsUnsatisfied(cs[1..], globalBest);
      var u := UnsatisfiedBy(cs, globalBest);
      if !IsClauseSatisfied(globalBest, cs[0].literals) {
        assert u[1..] == UnsatisfiedBy(cs[1..], globalBest);
      }
    }
  }

  /**
   The weight update never lowers a fitness, and leaves the global best's own
   fitness unchanged, so the recorded global-best fitness stays accurate.
   */
  lemma {:induction false} ReweighingKeepsGlobalBestFitness(cs: seq<WeightedClause>, globalBest: Valuation, v: Valuation)
    requires InRange(cs, |globalBest|)
    requires |v| == |globalBest|
    ensures Fitness(UpdateClausesWeight(cs, globalBest), v) >= Fitness(cs, v)
    ensures Fitness(UpdateClausesWeight(cs, globalBest), globalBest) == Fitness(cs, globalBest)
  {
    ReweighedFitness(cs, globalBest, v);
    ReweighedFitness(cs, globalBest, globalBest);
    GlobalBestMissesItsUnsatisfied(cs, globalBest);
  }

  /** Total weight grows by exactly the number of clauses the global best leaves unsatisfied. */
  lemma {:induction false} ReweighedTotal(cs: seq<WeightedClause>, globalBest: Valuation)
    requires InRange(cs, |globalBest|)
    ensures TotalWeight(UpdateClausesWeight(cs, globalBest))
         == TotalWeight(cs) + |cs| - NumSatisfiedClauses(cs, globalBest)
  {
    if |cs| > 0 {
      var rest := cs[1..];
      assert InRange(rest, |globalBest|);
      ReweighedTotal(rest, globalBest);
      assert UpdateClausesWeight(cs, globalBest)[1..] == UpdateClausesWeight(rest, globalBest);
      assert Literals(cs)[1..] == Literals(rest);
    }
  }
}
